=== FILE: README.md ===
# pygsm in Dafny

A model of the core of pygsm, a small REST service that tracks game servers,
games, players and a kill/death leaderboard on top of PostgreSQL. The model
covers four parts:

- **PSK authentication** (`core/auth.py`): the three format checkers, the
  validator table, the `Auth` object (`validate`, `check_db`, `authenticate`,
  `register_validator`) and the module-level `authenticate` that the HTTP layer
  calls with the configured key format.
- **The envelope helpers** (`utilities/__init__.py`): `response`,
  `response_positive`, `response_error` and `exists`.
- **The transaction safety net** (`core/decorators.py`): `rollback_on_failure`
  and its inner `wrapper`.
- **The request handlers** (`pygsm.py`): GET /game, GET /server, the ping
  upsert (POST /server), DELETE /server, GET and POST /game-player, GET
  /leaderboard, POST /game-player/stats and POST /register-kill.

Every handler is a pure function. It takes the shared database connection
(`Connection.Conn`: the committed store, the open transaction's working copy,
the transaction status psycopg2 reports and the time the open transaction
started) plus the request's parameters. It
returns the connection it leaves behind together with the envelope it answers
with, or with the database exception that escaped it.

The store (`Store.Store`) keeps the four tables as maps and a sequence, and
`Store.Apply` gives each write statement its meaning, including the foreign
keys the schema enforces. What the store cannot decide is an explicit input
(`Connection.Fault`): an engine failure, or a statement that completes without
touching a row. The same goes for the wall-clock time a request arrives at,
generated keys and generated UUIDs. A statement inside an aborted transaction raises, as
PostgreSQL does. That is what makes the consequences of the decorator defect
observable.

PostgreSQL's `now()` is the start time of the current transaction, not the time
of the statement. The GET handlers never commit, so the transaction a listing
opens stays open on the shared connection, and the `now()` of the next request's
statements is the listing's time. The model keeps that start time in the
connection: a listing judges recency against it, and a ping stamps its game and
its server row with it (`Connection.TxTime`).

Modules follow the program: `Authentication` (core/auth.py), `Envelopes`
(utilities/__init__.py), `Decorators` (core/decorators.py), `Servers`,
`Games`, `Players` and `Leaderboard` (the handlers of pygsm.py), over the shared
`Requests`, `Connection`, `Store`, `Settings`, `PyText` (the Python string
built-ins the checkers rely on) and `Wrappers`.

Some behaviours of the code that the model reproduces:

- GET /game-player by `game_uuid` returns no `meta`; only the lookup by
  `game_player_id` does (pygsm.py:213-222, 240-242).
- POST /game-player answers an unknown game with code 500, the `response_error`
  default (pygsm.py:264-266).
- The ping handler has no `dev` permission gate; the partition is taken from
  the key (pygsm.py:129).
- The md5 checker accepts everything `int(_, 16)` parses at length 32. That
  includes a `0x` prefix, a sign, underscores between digits, and surrounding
  whitespace of the kinds `int()` skips: space, tab, LF, VT, FF and CR, plus NEL
  and NBSP, but not the ASCII separators U+001C..U+001F (core/auth.py:60-71).
- The handlers test an `anonymous` attribute that `Auth` does not define; the
  request context they see is modelled as `Requests.AuthContext`.

## Model

| member | source | states |
|---|---|---|
| `Authentication.VerifyString` | core/auth.py:42-48 | a request value passes the string check exactly when it is present (a `str`) |
| `Authentication.VerifyUuid` | core/auth.py:50-58 | an accepted UUID text normalises (urn:/uuid: removed, braces stripped, hyphens removed) to exactly 32 characters |
| `Authentication.VerifyMd5` | core/auth.py:60-71 | any length other than 32 is refused, and an accepted text is one `int(_, 16)` parses |
| `Authentication.HexDigestAccepted` | core/auth.py:60-71 | every 32-character hex digest passes the md5 check |
| `Authentication.Md5ForeignCharRejected` | core/auth.py:66-69 | a single character that cannot occur in a base-16 literal makes the md5 check fail |
| `Authentication.Md5RejectsSeparatorPadding` | core/auth.py:66-69 | 31 hex digits padded with the separator U+001C are refused, since `int()` does not skip that character |
| `Authentication.Md5AcceptsPrefixedDigits` | core/auth.py:62-71 | `0x` followed by 30 hex digits passes the md5 check although it is not a hex digest |
| `Authentication.CanonicalShape` | core/auth.py:53-54 | the 8-4-4-4-12 hyphenated form is 36 characters of hex digits and hyphens that loses exactly its hyphens under normalisation |
| `Authentication.CanonicalUuidAccepted` | core/auth.py:50-58 | every canonical hyphenated UUID passes the uuid check |
| `Authentication.BracedUuidAccepted` | core/auth.py:50-58 | the braced form `{...}` passes the uuid check |
| `Authentication.UrnUuidAccepted` | core/auth.py:50-58 | the `urn:uuid:` form passes the uuid check |
| `Authentication.NewAuth` | core/auth.py:84-99 | constructing with a missing or empty PSK fails; otherwise the object keeps the PSK with the class defaults `development = True`, no description |
| `Authentication.RegisterValidator` | core/auth.py:101-107 | registering never succeeds; it fails with InvalidValidator exactly for a non-callable, otherwise with the undefined-name error |
| `Authentication.Check` | core/auth.py:117-118 | the `string` checker accepts every PSK; the `uuid` checker accepts exactly the PSKs that normalise to 32 characters parsing as a base-16 integer; the `md5` checker accepts exactly the 32-character PSKs parsing as one |
| `Authentication.Validate` | core/auth.py:109-120 | an unknown validator name is an InvalidValidator error, and a known one yields exactly that checker's verdict on the PSK (the name defaults to `string`) |
| `Authentication.ValidatorNames` | core/auth.py:78-82 | exactly the names `string`, `uuid` and `md5` select a validator, and the default `string` accepts every PSK an `Auth` holds |
| `Authentication.ActiveRows` | core/auth.py:125-126 | the query returns exactly the active credentials carrying the PSK |
| `Authentication.CheckDb` | core/auth.py:122-134 | the store check succeeds exactly when some active credential carries the PSK |
| `Authentication.CheckAuth` | core/auth.py:136-147 | the format is checked before the store, success requires both, the object is returned unchanged, and only InvalidValidator or AuthenticationFailed can be raised |
| `Authentication.FormatFailureIgnoresStore` | core/auth.py:139-141 | a malformed PSK is refused identically whatever the credential store holds |
| `Authentication.Authenticate` | core/auth.py:149-158 | construction errors and unknown formats escape; refusal is None exactly when the PSK is malformed or unregistered; a well-formed registered PSK always succeeds, yielding the object with the class defaults; no other error escapes |
| `Authentication.UnregisteredKeyRefused` | core/auth.py:143-145 | a PSK with no active credential is refused for every format |
| `Authentication.AuthenticatedKeyKeepsClassDefaults` | core/auth.py:128-132 | a registered production key still authenticates as a development key with no description |
| `Authentication.CheckDbIntended` | core/auth.py:122-134 | the intended store check finds the key exactly when it is registered and returns an active matching credential's flags |
| `Authentication.AuthenticateIntended` | core/auth.py:149-158 | the intended authentication accepts and refuses exactly the same keys, and an accepted key carries a matching credential's flags |
| `Authentication.IntendedMirrorsCredential` | core/auth.py:128-132 | with the intended store check, a key held by a single active credential takes that credential's development flag and description |
| `PyText.RemoveAll` | core/auth.py:53-54 | `str.replace(pat, '')` never lengthens a text and introduces no character |
| `PyText.RemoveAllAbsent` | core/auth.py:53-54 | a text lacking the pattern's first character is left unchanged by the removal |
| `PyText.RemoveCharConcat` | core/auth.py:53-54 | removing one character distributes over concatenation |
| `PyText.Strip` | core/auth.py:53-54 | stripping removes only characters of the class, and never leaves one at either end |
| `PyText.AllHexParses` | core/auth.py:66-69 | any non-empty run of hex digits parses as a base-16 integer |
| `PyText.PrefixedHexParses` | core/auth.py:66-69 | a `0x` prefix followed by hex digits parses as a base-16 integer |
| `PyText.ForeignCharRejected` | core/auth.py:66-69 | a text containing a character outside the base-16 literal alphabet does not parse |
| `Envelopes.Response` | utilities/__init__.py:31-38 | the data envelope is code 200, successful, message "Success", and carries the given object, None included |
| `Envelopes.NoneResponseIsPositive` | utilities/__init__.py:31-47 | `response(None)` is the same envelope as `response_positive("Success")`, and differs from a positive envelope with another code |
| `Envelopes.ResponsePositive` | utilities/__init__.py:40-47 | the positive envelope is successful, has the given code (200 by default) and message, and no results |
| `Envelopes.ResponseError` | utilities/__init__.py:49-56 | the error envelope is unsuccessful, has the given code (500 by default) and message, and no results |
| `Envelopes.Classify` | utilities/__init__.py:31-56 | every envelope the three builders can produce is produced by the builder call read back from it; `response(None)` is read back as `response_positive("Success")` |
| `Envelopes.BuildersAreInvertible` | utilities/__init__.py:31-56 | `response` with a non-None object (all the handlers pass), `response_positive` and `response_error` have disjoint images and lose no argument |
| `Envelopes.Finally` | utilities/__init__.py:28-29 | a `return` in a finally block replaces whatever completion was pending |
| `Envelopes.Exists` | utilities/__init__.py:22-29 | as written, `exists` reports true for every key, present or not |
| `Envelopes.ExistsReportsMissingKey` | utilities/__init__.py:22-29 | a key absent from the dictionary is reported present, unlike the intended helper |
| `Envelopes.ExistsIntended` | utilities/__init__.py:22-23 | the intended helper is true exactly when the key is in the dictionary |
| `Envelopes.ExistsIntendedSeparatesKeys` | utilities/__init__.py:22-23 | the intended helper is false for a missing key and true once that key is added |
| `Decorators.Wrapper` | core/decorators.py:27-36 | the wrapped call's return value or exception is passed on unchanged; a rollback happens exactly when the call returned and left the transaction aborted, and never after it raised |
| `Decorators.WrapperLeavesClean` | core/decorators.py:31-34 | a handler that returns leaving nothing pending comes out of the wrapper with no aborted transaction and no pending work |
| `Decorators.RaisingHandlerBypassesRollback` | core/decorators.py:29 | a handler that raises gets no rollback: its connection, aborted or not, is handed back with the exception |
| `Decorators.RollbackOnFailure` | core/decorators.py:24-36 | as written, the decorator returns nothing (None) |
| `Decorators.RollbackOnFailureIntended` | core/decorators.py:24-36 | the intended decorator returns a callable that behaves as the wrapper on every connection |
| `Decorators.IntendedDecoratorRestoresConnection` | core/decorators.py:24-36 | after a handler that returns with the transaction aborted, the intended decorator leaves an idle connection reverted to the committed store (after one that raises, the transaction stays aborted), while the one written yields None |
| `Requests.PermissionGate` | pygsm.py:56-59 | an absent or anonymous caller asking for development data is refused; otherwise a `dev` of None is taken from the caller's key (hug fills a missing `dev` with False) |
| `Requests.Refused` | pygsm.py:56-57 | a refused request answers 403 "Permission denied" and leaves the connection untouched |
| `Games.ListGames` | pygsm.py:52-81 | the listing returns exactly the named game or the games of the last GAME_MAX_AGE days before the open transaction's start in the requested partition, 404 when none, 403 for a refused caller, and an escaping error on an aborted connection; it leaves the transaction open |
| `Games.LookupIgnoresAge` | pygsm.py:61-62 | a game looked up by UUID is found however old it is, provided it is in the caller's partition |
| `Servers.ListServers` | pygsm.py:83-119 | the listing returns exactly the servers pinged within five minutes before the open transaction's start, not down, in the requested partition, 404 when none, 403 for a refused caller, and an escaping error on an aborted connection; it leaves the transaction open, started at the listing's time unless one was already open |
| `Servers.GameStatementEffect` | pygsm.py:139-142 | the ping's game insert adds a game under the named or generated key stamped with its time, does nothing for a named game that exists, and clashes only for an existing generated key |
| `Servers.PingWith` | pygsm.py:121-175 | a ping succeeds exactly when its game step and its upsert both run; each failure branch has its message and connection state; a success commits exactly the new game (if any) and one row for the server stamped with `now()` (the open transaction's start when nothing was committed in between), changing no other row |
| `Servers.GamePhase` | pygsm.py:138-151 | the game step raises exactly when its statement cannot run, leaving the transaction aborted; otherwise it applies the insert, and adopts (and commits) the returned UUID exactly when the threshold is 0 and a new game was inserted |
| `Servers.Upsert` | pygsm.py:155-175 | the server-row upsert commits exactly the row, marked up, on a healthy connection; an exception leaves the transaction aborted with the internal-error message; a statement touching no row is rolled back |
| `Servers.Ping` | pygsm.py:138-151 | as written, a successful ping records the game UUID the request gave (None when it gave none) |
| `Servers.PingIntended` | pygsm.py:146-151 | with the intended threshold, a successful ping records the given or the newly generated game |
| `Servers.PingRollsBackOnNoRows` | pygsm.py:169-172 | an upsert that touches no row rolls the request back to the store it found |
| `Servers.PingKeepsOneRowPerServer` | pygsm.py:156-163 | after a successful ping the server has a row, and the table grew by one only for a new server |
| `Servers.RepeatedPingKeepsLatest` | pygsm.py:156-163 | two pings from the same server leave one row, carrying the second ping's values |
| `Servers.PingKeepsExistingGame` | pygsm.py:139-140 | a ping naming an existing game leaves the games table unchanged |
| `Servers.PingOrphansNewGame` | pygsm.py:141-151 | as written, a ping without a game UUID creates a game that its server row does not reference |
| `Servers.PingIntendedRecordsNewGame` | pygsm.py:146-151 | with the intended threshold, the server row references the game the ping created |
| `Servers.AuthenticatedPingHiddenFromProduction` | pygsm.py:129 | every ping made with an accepted key is filed as development and is absent from the default production listing |
| `Servers.FailedPingPoisonsConnection` | pygsm.py:165-167 | a failed upsert leaves the shared connection aborted, and the next listing then fails |
| `Servers.PingedServerIsListed` | pygsm.py:92-98 | after a successful ping the server is listed in its partition with the values it reported, by any listing made while the ping's `now()` stamp is within five minutes |
| `Servers.PingAfterListingIsBackdated` | pygsm.py:155-160 | a ping served after a listing on an idle connection is stamped with the listing's time, so five minutes after that listing the server it reports is already stale to the listing at the ping's own time |
| `Servers.RemovedServerIsNotListed` | pygsm.py:184-185 | a server marked down appears in no listing, whatever the partition |
| `Servers.PingedGameIsListed` | pygsm.py:139-140 | a ping naming an unknown game creates it in the key's partition, and the game lookup then finds it stamped with the ping's `now()` |
| `Servers.RemoveServer` | pygsm.py:177-199 | the delete succeeds exactly for a known server on a healthy connection, committing only its `down` flag; an unknown server is rolled back with 404; an exception leaves the transaction aborted |
| `Players.ListPlayers` | pygsm.py:201-250 | the listing returns exactly the player by id (with its metadata), or the players of a game, or the players of recent games in the partition (without metadata), 404 when none |
| `Players.TargetedListingIgnoresPartition` | pygsm.py:211-222 | lookups by player id or by game return the same rows whichever partition an allowed caller names |
| `Players.AddPlayer` | pygsm.py:252-282 | the zero UUID is refused untouched; success needs a healthy connection and an existing game, commits exactly the new player and echoes its game; each failure has its message |
| `Players.AddPlayerNeedsAGame` | pygsm.py:262-266 | a player for an unknown game is refused with code 500, nothing is committed and the transaction stays aborted |
| `Players.AddedPlayerIsListed` | pygsm.py:211-215 | a player just added is then listed under its id with its metadata |
| `Leaderboard.Tally` | pygsm.py:297-302 | a player without entries totals zero kills and zero deaths |
| `Leaderboard.TallyAppend` | pygsm.py:297-302 | appending an entry raises each player's totals by exactly that entry's contribution |
| `Leaderboard.WithId` | pygsm.py:315-319 | the selection holds exactly the entries with the given leaderboard id |
| `Leaderboard.Select` | pygsm.py:295-323 | a truthy player id takes precedence over a game UUID, which takes precedence over a truthy leaderboard id |
| `Leaderboard.ReadLeaderboard` | pygsm.py:284-341 | the chosen query returns exactly each selected player's summed kills and deaths (zero without entries, except in the entry query), 404 when none, and 501 without any query when nothing is named; a query leaves the transaction open |
| `Leaderboard.EntriesAreSummed` | pygsm.py:297-302 | entries (2, 0) and (1, 3) of one player are reported as (3, 3) |
| `Leaderboard.NoEntriesReadsZero` | pygsm.py:297-302 | a registered player without entries is reported with zero kills and deaths |
| `Leaderboard.AddStats` | pygsm.py:343-363 | a stats entry is committed exactly for a known player on a healthy connection; any exception answers with the internal-error message and leaves the transaction aborted |
| `Leaderboard.StatsAccumulate` | pygsm.py:350-351 | adding stats raises that player's totals by exactly the new values and leaves every other player's totals unchanged |
| `Leaderboard.StatsReadBack` | pygsm.py:343-363 | stats added for a player are read back through GET /leaderboard as the old totals plus the new values |
| `Leaderboard.KillStep` | pygsm.py:383-410 | one register-kill insert is committed exactly for a known player on a healthy connection; any failure rolls back, with the row-count, invalid-player or internal message |
| `Leaderboard.Join` | pygsm.py:442 | joining one message gives that message, and joining two puts a single space between them |
| `Leaderboard.Combine` | pygsm.py:441-444 | the answer succeeds exactly when neither step failed; a failure is 400 exactly when a step hit an invalid player, otherwise 500, and carries the failed steps' messages in order |
| `Leaderboard.RegisterKill` | pygsm.py:365-444 | with neither player named it answers 400 untouched; otherwise it always leaves a clean idle connection and commits exactly the kill and the death entries whose steps succeeded, including on a connection a previous request left aborted; it answers success exactly when every named player's step succeeded, and otherwise 400 exactly when a step hit an unknown player, else 500 |
| `Leaderboard.PoisonedKillStillRecordsDeath` | pygsm.py:383-426 | on an aborted connection the kill step fails with the internal error and rolls back, after which the victim's death is still committed |
| `Leaderboard.KillSurvivesInvalidVictim` | pygsm.py:407-437 | a valid killer with an unknown victim keeps the kill, and the caller sees the victim's error with code 400 |
| `Store.Apply` | pygsm.py:140-163 | each write affects at most one row and preserves the schema's foreign keys |
| `Connection.Execute` | pygsm.py:138-145 | a statement on an aborted transaction raises; a failing statement aborts the transaction and keeps the working copy; a successful one applies the statement and keeps the foreign keys |
| `Connection.Begin` | pygsm.py:155-160 | a statement's `now()` is the start of the transaction already open, or the statement's own time when it opens one |
| `Connection.Read` | pygsm.py:92-98 | a SELECT raises on an aborted transaction, and otherwise opens or continues a transaction that changes nothing and whose start time it keeps |
| `Connection.Rollback` | pygsm.py:171 | a rollback discards the working copy and leaves the connection idle |
| `Connection.Commit` | pygsm.py:174 | a commit makes the working copy the committed store, except in an aborted transaction, where it acts as a rollback |

## Left out

- I/O is left out: HTTP routing, hug's parameter parsing and the JSON serialisation of envelopes (stamps as ISO strings, UUIDs as text). Handler parameters arrive already typed.
- Logging is not modelled (core/log.py is not part of this model).
- The configuration file and its parser are left out. `GAME_MAX_AGE` (30) and `AUTH_PSK_FORMAT` ("string") are constants taken from the config fallbacks.
- The database is not modelled as a running system. Each handler's SQL is given its meaning over immutable maps. The wall-clock time of a request, generated keys and generated UUIDs are inputs, and so are engine failures (`Connection.Fault`). PostgreSQL's `now()` is derived from that time and the connection's open transaction (`Connection.TxTime`).
- Time is reduced to integer seconds, with thirty days as 30 × 86400 s and five minutes as 300 s.
- Concurrency between requests is not modelled. The one shared connection is threaded through the handlers in sequence.
- `/auth-test` and the `optional_api_key` hook are left out. The hook is imported from a file that is not part of this model; its effect reaches the handlers only as the optional auth context.
- Listing results are sets: the SQL gives no order, or a random one.
- `dev is None` is kept as a case of `Requests.PermissionGate`, although hug's boolean type always supplies a value.
- A server's first ping inserts its row without setting `down`; the column is assumed to default to false, so the new row counts as up. The schema is not part of this model.
- A game UUID on the ping row is not checked against `game`. The schema is not shown, so whether that column has a foreign key is unknown.
- The fallback in POST /game-player where `fetchone` raises ProgrammingError is not modelled. The echoed game UUID is the one the request gave.
- Unicode whitespace beyond Latin-1 and Unicode digits, which `int()` maps to ASCII before parsing, are not modelled in `PyText`. The grammar of `int()` is Python 3.6's or later, which accepts underscores between digits.
- `Authentication.VerifyUuid`: the contract only bounds the normalised length at 32 characters. Acceptance of the canonical, braced and `urn:uuid:` forms is stated by the lemmas `CanonicalUuidAccepted`, `BracedUuidAccepted` and `UrnUuidAccepted`.
- `Authentication.RegisterValidator`: the success path raises NameError, because `valid_types` is undefined. It is modelled as the error `UndefinedName`, so the validator table never grows.
- `Servers.Ping`: the handler is modelled undecorated, because `rollback_on_failure` returns None and hug registers the inner function. No rollback follows an aborted request.

## Findings

| source | as written | input that shows it | evidently intended | confidence | as-written member | corrected member |
|---|---|---|---|---|---|---|
| core/auth.py:128-132 | `check_db` assigns the fetched row's `development` and `description` to local variables, so the object keeps `development = True` and no description | a registered active key whose row has `development = false` | store the row's flags on the object (`self.development`, `self.description`) | not executed | `Authentication.AuthenticatedKeyKeepsClassDefaults` | `Authentication.IntendedMirrorsCredential` |
| pygsm.py:146-151 | the new game's UUID is adopted only when the insert reports more than one row, which a single-row insert never does | a ping without `game_uuid` on a healthy connection | adopt the generated UUID when the insert affected a row (`rowcount > 0`) | not executed | `Servers.PingOrphansNewGame` | `Servers.PingIntendedRecordsNewGame` |
| core/decorators.py:24-36 | `rollback_on_failure` defines `wrapper` but never returns it, so the decorator yields None and no rollback ever runs | any decorated handler that leaves the transaction aborted, such as a ping whose upsert fails | return `wrapper`, rolling back an aborted transaction after the handler, and apply `@rollback_on_failure` below `@hug.post` (as written, hug registers the undecorated function before the decorator runs) | not executed | `Servers.FailedPingPoisonsConnection` | `Decorators.IntendedDecoratorRestoresConnection` |
| utilities/__init__.py:22-29 | the `return True` in `finally` overrides the `return False` of the KeyError handler, so `exists` is always true | an empty dictionary and any key | report whether the key is present | not executed | `Envelopes.ExistsReportsMissingKey` | `Envelopes.ExistsIntendedSeparatesKeys` |

=== FILE: auth.dfy ===
/**
 PSK authentication (core/auth.py): the format checkers, the validator table,
 the `Auth` object and the two-step `authenticate`.
 */
module Authentication {
  import opened Wrappers
  import opened PyText
  import Settings

  /** The exceptions authentication can end in. */
  datatype AuthError =
    | AuthenticationFailed  // the module's AuthenticationFailed
    | InvalidValidator      // the module's InvalidValidator (a TypeError)
    | MissingPsk            // Exception("Auth must be instantiated with a PSK")
    | UndefinedName         // NameError: `valid_types` is not defined anywhere

  // ---------------------------------------------------------------------------
  // Format checkers

  /** `verify_string`: true exactly for values of type `str`; `None` is the only other value a request supplies. */
  function VerifyString(v: Option<string>): (r: bool)
    ensures r <==> v.Some?
  {
    match v
    case Some(_) => true
    case None => false
  }

  predicate IsBrace(c: char)
  {
    c == '{' || c == '}'
  }

  /** The characters `uuid.UUID(u)` goes on to parse: `urn:` and `uuid:` removed, braces stripped, hyphens removed. */
  function UuidHex(u: string): string
  {
    var h := RemoveAll(RemoveAll(u, "urn:"), "uuid:");
    RemoveAll(Strip(h, IsBrace), "-")
  }

  /** `verify_uuid`: whether `uuid.UUID(u)` returns instead of raising ValueError. */
  function VerifyUuid(u: string): (r: bool)
    ensures r ==> |UuidHex(u)| == 32
  {
    var hex := UuidHex(u);
    |hex| == 32 && ParsesAsHexInt(hex)
  }

  /** `verify_md5`: false for any length but 32, otherwise whether `int(m, 16)` parses. */
  function VerifyMd5(m: string): (r: bool)
    ensures |m| != 32 ==> !r
    ensures r ==> ParsesAsHexInt(m)
  {
    if |m| != 32 then false else ParsesAsHexInt(m)
  }

  /** The validators a name can select; `Auth.validators` holds no other. */
  datatype Format = StringFormat | UuidFormat | Md5Format

  /** `Auth.validators`. Nothing can add to it: `register_validator` fails before writing. */
  const Validators: map<string, Format> := map["string" := StringFormat, "uuid" := UuidFormat, "md5" := Md5Format]

  /** Runs the selected checker on a PSK (checkers are only ever applied to the object's string PSK). */
  function Check(f: Format, psk: string): (r: bool)
    ensures f == StringFormat ==> r
    ensures f == UuidFormat ==> (r <==> |UuidHex(psk)| == 32 && ParsesAsHexInt(UuidHex(psk)))
    ensures f == Md5Format ==> (r <==> |psk| == 32 && ParsesAsHexInt(psk))
  {
    match f
    case StringFormat => VerifyString(Some(psk))
    case UuidFormat => VerifyUuid(psk)
    case Md5Format => VerifyMd5(psk)
  }

  // ---------------------------------------------------------------------------
  // The Auth object

  /** An `Auth` instance: the PSK plus the two class attributes an instance can shadow. */
  datatype Auth = Auth(psk: string, development: bool, description: Option<string>)

  /** `Auth(psk)`: a falsy PSK raises; otherwise the class defaults `development = True` and `description = None` stay. */
  function NewAuth(psk: Option<string>): (r: Result<Auth, AuthError>)
    ensures r.Err? <==> psk == None || psk == Some("")
    ensures r.Err? ==> r.error == MissingPsk
    ensures r.Ok? ==> r.value.psk == psk.value && r.value.development && r.value.description == None
  {
    if psk == None || psk == Some("") then Err(MissingPsk)
    else Ok(Auth(psk.value, true, None))
  }

  /** What `register_validator` is given: something callable (a checker) or not. */
  datatype Candidate = Callable(format: Format) | NotCallable

  /**
   `register_validator(name, validator)`: a non-callable is refused with
   InvalidValidator; a callable one reaches `valid_types[name] = ...`, which
   names an undefined variable, so the call never succeeds and `Validators`
   never grows.
   */
  function RegisterValidator(a: Auth, name: string, validator: Candidate): (r: Result<(), AuthError>)
    ensures r.Err?
    ensures r.error == InvalidValidator <==> validator.NotCallable?
  {
    if validator.NotCallable? then Err(InvalidValidator) else Err(UndefinedName)
  }

  /** `validate(type_name)`: an unknown name raises; a known one yields the checker's verdict. */
  function Validate(a: Auth, typeName: string := "string"): (r: Result<bool, AuthError>)
    ensures r.Err? <==> typeName !in Validators
    ensures r.Err? ==> r.error == InvalidValidator
    ensures r.Ok? ==> (r.value <==> Check(Validators[typeName], a.psk))
  {
    if typeName !in Validators then Err(InvalidValidator)
    else Ok(Check(Validators[typeName], a.psk))
  }

  /**
   Exactly the three registered names select a validator, and the default one,
   `string`, accepts every PSK an `Auth` can hold.
   */
  lemma ValidatorNames(a: Auth, name: string)
    ensures Validate(a, name).Ok? <==> name == "string" || name == "uuid" || name == "md5"
    ensures Validate(a) == Ok(true)
  {
  }

  /** A row of the `psk` table. */
  datatype Credential = Credential(psk: string, active: bool, development: bool, description: Option<string>)

  /** The rows of `SELECT ... FROM psk WHERE active = true AND psk = %s`, in table order. */
  function ActiveRows(creds: seq<Credential>, psk: string): (rows: seq<Credential>)
    ensures forall c :: c in rows <==> c in creds && c.active && c.psk == psk
  {
    if |creds| == 0 then []
    else
      var rest := ActiveRows(creds[1..], psk);
      assert forall c :: c in creds <==> c == creds[0] || c in creds[1..];
      if creds[0].active && creds[0].psk == psk then [creds[0]] + rest else rest
  }

  /** Holds when some active credential carries this PSK. */
  predicate Registered(creds: seq<Credential>, psk: string)
  {
    exists c :: c in creds && c.active && c.psk == psk
  }

  /**
   `check_db`: true exactly when an active credential carries the PSK. The row
   it fetches is bound to locals only, so the object itself is not changed.
   */
  function CheckDb(a: Auth, creds: seq<Credential>): (r: bool)
    ensures r <==> Registered(creds, a.psk)
  {
    var rows := ActiveRows(creds, a.psk);
    if |rows| > 0 then
      assert rows[0] in rows;
      true
    else false
  }

  /**
   `Auth.authenticate(type_name)`: the format check first, the store only after it
   passes; the result is the object as it stands afterwards.
   */
  function CheckAuth(a: Auth, typeName: string, creds: seq<Credential>): (r: Result<Auth, AuthError>)
    ensures typeName !in Validators ==> r == Err(InvalidValidator)
    ensures typeName in Validators && !Check(Validators[typeName], a.psk) ==> r == Err(AuthenticationFailed)
    ensures r.Ok? <==> typeName in Validators && Check(Validators[typeName], a.psk) && Registered(creds, a.psk)
    ensures r.Ok? ==> r.value == a
    ensures r.Err? ==> r.error in {InvalidValidator, AuthenticationFailed}
  {
    match Validate(a, typeName)
    case Err(e) => Err(e)
    case Ok(valid) =>
      if !valid then Err(AuthenticationFailed)
      else if !CheckDb(a, creds) then Err(AuthenticationFailed)
      else Ok(a)
  }

  /** A PSK that fails its format check is refused whatever the credential store holds. */
  lemma FormatFailureIgnoresStore(a: Auth, typeName: string, creds1: seq<Credential>, creds2: seq<Credential>)
    requires typeName in Validators && !Check(Validators[typeName], a.psk)
    ensures CheckAuth(a, typeName, creds1) == CheckAuth(a, typeName, creds2) == Err(AuthenticationFailed)
  {
  }

  /**
   Module-level `authenticate(psk)` with `settings['AUTH_PSK_FORMAT']` as `format`:
   construction errors and InvalidValidator escape, AuthenticationFailed becomes
   `None`, and success yields the freshly built object.
   */
  function Authenticate(psk: Option<string>, creds: seq<Credential>, format: string := Settings.AuthPskFormat): (r: Result<Option<Auth>, AuthError>)
    ensures psk == None || psk == Some("") ==> r == Err(MissingPsk)
    ensures psk != None && psk != Some("") && format !in Validators ==> r == Err(InvalidValidator)
    ensures r == Ok(None) <==>
      && psk != None && psk != Some("") && format in Validators
      && !(Check(Validators[format], psk.value) && Registered(creds, psk.value))
    ensures r.Ok? && r.value.Some? ==> r.value.value == Auth(psk.value, true, None) && Registered(creds, psk.value)
    ensures psk != None && psk != Some("") && format in Validators && Check(Validators[format], psk.value) && Registered(creds, psk.value) ==>
      r == Ok(Some(Auth(psk.value, true, None)))
    ensures r.Err? ==> r.error == MissingPsk || r.error == InvalidValidator
  {
    match NewAuth(psk)
    case Err(e) => Err(e)
    case Ok(a) =>
      match CheckAuth(a, format, creds)
      case Err(AuthenticationFailed) => Ok(None)
      case Err(e) => Err(e)
      case Ok(_) => Ok(Some(a))
  }

  /** Every PSK with no active credential is refused, however well formed it is. */
  lemma UnregisteredKeyRefused(psk: string, creds: seq<Credential>, format: string)
    requires psk != "" && format in Validators
    requires forall c :: c in creds ==> !c.active || c.psk != psk
    ensures Authenticate(Some(psk), creds, format) == Ok(None)
  {
  }

  /**
   As written, a registered production key (development = false) still yields
   an object with the class defaults, development = True and no description.
   */
  lemma AuthenticatedKeyKeepsClassDefaults()
    ensures var cred := Credential("secret", true, false, Some("prod server"));
            Authenticate(Some("secret"), [cred]) == Ok(Some(Auth("secret", true, None)))
  {
    var cred := Credential("secret", true, false, Some("prod server"));
    assert cred in [cred];
  }

  // ---------------------------------------------------------------------------
  // The evidently intended `check_db`: the fetched row's flags are stored on the object.

  /** `check_db` assigning `self.development` and `self.description` from the first fetched row. */
  function CheckDbIntended(a: Auth, creds: seq<Credential>): (r: Option<Auth>)
    ensures r.Some? <==> Registered(creds, a.psk)
    ensures r.Some? ==> exists c :: c in creds && c.active && c.psk == a.psk && r.value == Auth(a.psk, c.development, c.description)
  {
    var rows := ActiveRows(creds, a.psk);
    if |rows| > 0 then
      assert rows[0] in rows;
      Some(Auth(a.psk, rows[0].development, rows[0].description))
    else None
  }

  /** Module-level `authenticate` over the intended `check_db`. */
  function AuthenticateIntended(psk: Option<string>, creds: seq<Credential>, format: string := Settings.AuthPskFormat): (r: Result<Option<Auth>, AuthError>)
    ensures r.Err? <==> Authenticate(psk, creds, format).Err?
    ensures r.Ok? ==> (r.value.Some? <==> Authenticate(psk, creds, format).value.Some?)
    ensures r.Ok? && r.value.Some? ==>
      exists c :: c in creds && c.active && c.psk == psk.value && r.value.value == Auth(psk.value, c.development, c.description)
  {
    match NewAuth(psk)
    case Err(e) => Err(e)
    case Ok(a) =>
      match Validate(a, format)
      case Err(e) => Err(e)
      case Ok(valid) =>
        if !valid then Ok(None)
        else
          match CheckDbIntended(a, creds)
          case None => Ok(None)
          case Some(b) => Ok(Some(b))
  }

  /** With the intended `check_db`, a key held by one active credential takes on that credential's flags. */
  lemma IntendedMirrorsCredential(cred: Credential, others: seq<Credential>)
    requires cred.active && cred.psk != "" && Check(Validators[Settings.AuthPskFormat], cred.psk)
    requires forall c :: c in others ==> !c.active || c.psk != cred.psk
    ensures AuthenticateIntended(Some(cred.psk), [cred] + others) == Ok(Some(Auth(cred.psk, cred.development, cred.description)))
  {
    var creds := [cred] + others;
    assert cred in creds;
    assert forall c :: c in creds && c.active && c.psk == cred.psk ==> c == cred;
  }

  // ---------------------------------------------------------------------------
  // What the format checkers accept

  /** Any 32 hex digits pass the md5 check. */
  lemma HexDigestAccepted(m: string)
    requires |m| == 32 && AllHex(m)
    ensures VerifyMd5(m)
  {
    AllHexParses(m);
  }

  /** One character foreign to `int(_, 16)` fails the md5 check. */
  lemma Md5ForeignCharRejected(m: string, c: char)
    requires c in m && !MayAppearInHexInt(c)
    ensures !VerifyMd5(m)
  {
    ForeignCharRejected(m, c);
  }

  /** An ASCII separator such as U+001C is not whitespace to `int()`: padding a digest with it is refused. */
  lemma Md5RejectsSeparatorPadding(t: string)
    requires |t| == 31 && AllHex(t)
    ensures !VerifyMd5(['\U{001C}'] + t)
  {
    Md5ForeignCharRejected(['\U{001C}'] + t, '\U{001C}');
  }

  /** The md5 check is laxer than "32 hex digits": `int(_, 16)` also takes a `0x` prefix. */
  lemma Md5AcceptsPrefixedDigits(v: string)
    requires |v| == 30 && AllHex(v)
    ensures VerifyMd5("0x" + v) && !AllHex("0x" + v)
  {
    PrefixedHexParses(v);
    assert !IsHexDigit(("0x" + v)[1]);
  }

  predicate HexGroup(g: string, n: nat)
  {
    |g| == n && AllHex(g)
  }

  /** Hex digits contain neither `u`, braces nor hyphens, so normalisation leaves them alone. */
  lemma HexHasNoSyntax(g: string)
    requires AllHex(g)
    ensures 'u' !in g && '-' !in g
    ensures RemoveAll(g, "-") == g
  {
    RemoveAllAbsent(g, "-");
  }

  /** A lone hyphen is removed entirely. */
  lemma DashRemoved()
    ensures RemoveAll("-", "-") == ""
  {
    assert "-" <= "-";
    assert "-"[1..] == "";
  }

  /** Removing hyphens from `x-g` for a hex group `g`. */
  lemma DashJoin(x: string, g: string)
    requires AllHex(g)
    ensures RemoveAll(x + "-" + g, "-") == RemoveAll(x, "-") + g
  {
    calc {
      RemoveAll(x + "-" + g, "-");
      { RemoveCharConcat(x + "-", g, '-'); }
      RemoveAll(x + "-", "-") + RemoveAll(g, "-");
      { HexHasNoSyntax(g); }
      RemoveAll(x + "-", "-") + g;
      { RemoveCharConcat(x, "-", '-'); DashRemoved(); }
      RemoveAll(x, "-") + g;
    }
  }

  /** The canonical 8-4-4-4-12 form, written out with its hyphens. */
  function Hyphenated(a: string, b: string, c: string, d: string, e: string): string
  {
    a + "-" + b + "-" + c + "-" + d + "-" + e
  }

  predicate CanonicalGroups(a: string, b: string, c: string, d: string, e: string)
  {
    HexGroup(a, 8) && HexGroup(b, 4) && HexGroup(c, 4) && HexGroup(d, 4) && HexGroup(e, 12)
  }

  /** A canonical form contains only hex digits and hyphens, and loses exactly its hyphens. */
  lemma CanonicalShape(a: string, b: string, c: string, d: string, e: string)
    requires CanonicalGroups(a, b, c, d, e)
    ensures var u := Hyphenated(a, b, c, d, e);
            && 'u' !in u && |u| == 36 && IsHexDigit(u[0]) && IsHexDigit(u[35])
            && (forall ch :: ch in u ==> IsHexDigit(ch) || ch == '-')
            && RemoveAll(u, "-") == a + b + c + d + e
            && |a + b + c + d + e| == 32 && AllHex(a + b + c + d + e)
  {
    var u := Hyphenated(a, b, c, d, e);
    assert forall ch :: ch in a ==> IsHexDigit(ch);
    assert forall ch :: ch in b ==> IsHexDigit(ch);
    assert forall ch :: ch in c ==> IsHexDigit(ch);
    assert forall ch :: ch in d ==> IsHexDigit(ch);
    assert forall ch :: ch in e ==> IsHexDigit(ch);
    assert forall ch :: ch in u ==> ch in a || ch in b || ch in c || ch in d || ch in e || ch == '-';
    assert u[0] == a[0];
    assert u[35] == e[11];
    HexHasNoSyntax(a);
    DashJoin(a, b);
    DashJoin(a + "-" + b, c);
    DashJoin(a + "-" + b + "-" + c, d);
    DashJoin(a + "-" + b + "-" + c + "-" + d, e);
    var all := a + b + c + d + e;
    assert forall i :: 0 <= i < |all| ==> all[i] in all;
  }

  /** The canonical hyphenated form is a valid UUID. */
  lemma CanonicalUuidAccepted(a: string, b: string, c: string, d: string, e: string)
    requires CanonicalGroups(a, b, c, d, e)
    ensures VerifyUuid(Hyphenated(a, b, c, d, e))
  {
    var u := Hyphenated(a, b, c, d, e);
    CanonicalShape(a, b, c, d, e);
    RemoveAllAbsent(u, "urn:");
    RemoveAllAbsent(u, "uuid:");
    StripKeeps(u, IsBrace);
    AllHexParses(a + b + c + d + e);
  }

  /** Braces around a text that neither starts nor ends with one are stripped. */
  lemma BracesStripped(u: string)
    requires |u| > 0 && !IsBrace(u[0]) && !IsBrace(u[|u| - 1])
    ensures Strip("{" + u + "}", IsBrace) == u
  {
    var w := "{" + u + "}";
    assert w[1..] == u + "}";
    assert (u + "}")[0] == u[0];
    assert StripLeft(w, IsBrace) == u + "}";
    assert (u + "}")[..|u|] == u;
    assert StripRight(u + "}", IsBrace) == u;
  }

  /** The braced form `{...}` is a valid UUID. */
  lemma BracedUuidAccepted(a: string, b: string, c: string, d: string, e: string)
    requires CanonicalGroups(a, b, c, d, e)
    ensures VerifyUuid("{" + Hyphenated(a, b, c, d, e) + "}")
  {
    var u := Hyphenated(a, b, c, d, e);
    var w := "{" + u + "}";
    CanonicalShape(a, b, c, d, e);
    assert 'u' !in w by {
      assert forall ch :: ch in w ==> ch == '{' || ch == '}' || ch in u;
    }
    RemoveAllAbsent(w, "urn:");
    RemoveAllAbsent(w, "uuid:");
    BracesStripped(u);
    assert UuidHex(w) == a + b + c + d + e;
    AllHexParses(a + b + c + d + e);
  }

  /** `urn:` occurs nowhere in `uuid:` followed by a text without `u`. */
  lemma UrnAbsentAfterUuidTag(u: string)
    requires 'u' !in u
    ensures RemoveAll("uuid:" + u, "urn:") == "uuid:" + u
  {
    var s := "uuid:" + u;
    var t := "id:" + u;
    assert 'u' !in t by {
      assert forall ch :: ch in t ==> ch == 'i' || ch == 'd' || ch == ':' || ch in u;
    }
    RemoveAllAbsent(t, "urn:");
    assert s[1..] == "uid:" + u;
    assert ("uid:" + u)[1..] == t;
    assert !("urn:" <= s);
    assert !("urn:" <= "uid:" + u);
  }

  /** Both tags of `urn:uuid:` are removed from a text without `u`. */
  lemma UrnTagsRemoved(u: string)
    requires 'u' !in u
    ensures RemoveAll(RemoveAll("urn:uuid:" + u, "urn:"), "uuid:") == u
  {
    assert "urn:uuid:" + u == "urn:" + ("uuid:" + u);
    RemoveAllLeading("urn:", "uuid:" + u);
    UrnAbsentAfterUuidTag(u);
    RemoveAllLeading("uuid:", u);
    RemoveAllAbsent(u, "uuid:");
  }

  /** The `urn:uuid:` form is a valid UUID. */
  lemma UrnUuidAccepted(a: string, b: string, c: string, d: string, e: string)
    requires CanonicalGroups(a, b, c, d, e)
    ensures VerifyUuid("urn:uuid:" + Hyphenated(a, b, c, d, e))
  {
    var u := Hyphenated(a, b, c, d, e);
    CanonicalShape(a, b, c, d, e);
    UrnTagsRemoved(u);
    StripKeeps(u, IsBrace);
    assert UuidHex("urn:uuid:" + u) == a + b + c + d + e;
    AllHexParses(a + b + c + d + e);
  }
}

=== FILE: connection.dfy ===
/**
 The shared database connection as the handlers drive it (psycopg2 over
 PostgreSQL): the committed store, the open transaction's working copy, and
 the transaction status `get_transaction_status()` reports.
 */
module Connection {
  import opened Wrappers
  import opened Store

  datatype TxStatus = Idle | InTransaction | InError

  /** psycopg2's IntegrityError versus any other database exception. */
  datatype DbError = IntegrityError | OtherError

  /**
   What the engine does with a statement besides the store's own rules: run it,
   fail it (lost connection, timeout, ...), or complete it without touching a row.
   */
  datatype Fault = NoFault | Fails | NoRows

  /**
   The connection: the committed store, the open transaction's working copy,
   its status, and when the open transaction started (what `now()` returns inside
   it; meaningless while idle).
   */
  datatype Conn = Conn(committed: Store, work: Store, status: TxStatus, since: int)

  /**
   PostgreSQL's `now()` for a statement issued at wall-clock time `now`: the start
   of the transaction already open, or `now` itself when the statement opens one.
   */
  function TxTime(c: Conn, now: int): int
  {
    if c.status == Idle then now else c.since
  }

  /**
   The clock side of issuing a statement at `now`: an idle connection's next
   transaction starts then. Handlers that do not read `now()` skip this step; each
   of them closes or aborts the transaction it opens, so no later `now()` sees it.
   */
  function Begin(c: Conn, now: int): (r: Conn)
    ensures r.since == TxTime(c, now)
    ensures r.committed == c.committed && r.work == c.work && r.status == c.status
    ensures TxTime(r, now) == TxTime(c, now)
  {
    c.(since := TxTime(c, now))
  }

  /** The cursor's `rowcount` after `execute`, or the exception `execute` raised. */
  datatype RowCount = Rows(n: nat) | Raised(error: DbError)

  /** `cursor.rowcount` as the handler reads it: -1 once `execute` has raised. */
  function Count(r: RowCount): int
  {
    match r
    case Rows(n) => n
    case Raised(_) => -1
  }

  datatype Executed = Executed(conn: Conn, rows: RowCount)

  /**
   `cursor.execute(stmt)`. Inside an aborted transaction every statement raises;
   a failing statement aborts the transaction and leaves the working copy as it
   was; a successful one opens (or continues) the transaction.
   */
  function Execute(c: Conn, fault: Fault, stmt: Statement): (x: Executed)
    ensures x.conn.committed == c.committed
    ensures c.status == InError ==> x == Executed(c, Raised(OtherError))
    ensures x.rows.Raised? ==> x.conn == c.(status := InError)
    ensures x.rows.Rows? ==> x.conn.status == InTransaction && x.rows.n <= 1
    ensures x.rows == Raised(IntegrityError) <==> c.status != InError && fault != Fails && Apply(c.work, stmt).Violation?
    ensures x.rows.Rows? <==> c.status != InError && fault != Fails && Apply(c.work, stmt).Applied?
    ensures x.rows.Rows? && fault == NoRows ==> x.rows.n == 0 && x.conn.work == c.work
    ensures x.rows.Rows? && fault == NoFault ==> x.conn.work == Apply(c.work, stmt).store && x.rows.n == Apply(c.work, stmt).rows
    ensures Intact(c) ==> Intact(x.conn)
    ensures x.conn.since == c.since
  {
    if c.status == InError then Executed(c, Raised(OtherError))
    else if fault == Fails then Executed(c.(status := InError), Raised(OtherError))
    else
      match Apply(c.work, stmt)
      case Violation => Executed(c.(status := InError), Raised(IntegrityError))
      case Applied(s, n) =>
        if fault == NoRows then Executed(c.(status := InTransaction), Rows(0))
        else Executed(c.(work := s, status := InTransaction), Rows(n))
  }

  /** `connection.rollback()`: the working copy reverts to the committed store. */
  function Rollback(c: Conn): (r: Conn)
    ensures r.committed == c.committed && r.work == c.committed && r.status == Idle
  {
    Conn(c.committed, c.committed, Idle, c.since)
  }

  /**
   `connection.commit()`: the working copy becomes the committed store; in an
   aborted transaction the server answers COMMIT with a rollback.
   */
  function Commit(c: Conn): (r: Conn)
    ensures r.status == Idle && r.work == r.committed
    ensures c.status != InError ==> r.committed == c.work
    ensures c.status == InError ==> r == Rollback(c)
  {
    if c.status == InError then Rollback(c) else Conn(c.work, c.work, Idle, c.since)
  }

  /**
   A SELECT issued at `now`: it raises inside an aborted transaction and otherwise
   opens (or continues) a transaction that changes nothing. Nothing commits it.
   */
  function Read(c: Conn, now: int): (r: Result<Conn, DbError>)
    ensures r.Err? <==> c.status == InError
    ensures r.Ok? ==> r.value == c.(status := InTransaction, since := TxTime(c, now))
    ensures r.Ok? ==> TxTime(r.value, now) == TxTime(c, now)
  {
    if c.status == InError then Err(OtherError) else Ok(Begin(c, now).(status := InTransaction))
  }

  /** Between requests: unless the transaction is aborted, no uncommitted work is pending. */
  predicate Settled(c: Conn)
  {
    c.status != InError ==> c.work == c.committed
  }

  /** A connection with nothing pending and nothing aborted: the store a request sees is the committed one. */
  predicate Clean(c: Conn)
  {
    c.status != InError && c.work == c.committed
  }

  /** The foreign keys hold in both the committed store and the working copy. */
  predicate Intact(c: Conn)
  {
    ReferencesHold(c.committed) && ReferencesHold(c.work)
  }
}

=== FILE: decorators.dfy ===
/**
 The transaction safety net `rollback_on_failure` (core/decorators.py): run the
 wrapped handler, then roll back iff the transaction is left aborted. A handler
 is a function from the connection to the connection it leaves and either its
 return value (`Ok`) or the exception it raised (`Err`).
 */
module Decorators {
  import opened Wrappers
  import opened Connection

  /** What the wrapper hands back (a value or a propagating exception), together with whether it issued a rollback. */
  datatype Wrapped<R, E> = Wrapped(conn: Conn, result: Result<R, E>, rolledBack: bool)

  /**
   The inner `wrapper`: one call of `func`, whose result is returned unchanged.
   When `func` returns, a rollback happens exactly when the status afterwards is
   TRANSACTION_STATUS_INERROR, and any other status is left as it is. When `func`
   raises, the exception propagates before the status is ever inspected.
   */
  function Wrapper<R(==), E(==)>(func: Conn -> (Conn, Result<R, E>), c: Conn): (w: Wrapped<R, E>)
    ensures w.result == func(c).1
    ensures w.rolledBack <==> func(c).1.Ok? && func(c).0.status == InError
    ensures !w.rolledBack ==> w.conn == func(c).0
    ensures w.rolledBack ==> w.conn == Rollback(func(c).0)
    ensures func(c).1.Ok? ==> w.conn.status != InError
  {
    var (after, result) := func(c);
    if result.Err? then Wrapped(after, result, false)
    else if after.status == InError then Wrapped(Rollback(after), result, true)
    else Wrapped(after, result, false)
  }

  /** A handler that returns and ends settled comes out of the wrapper clean: nothing aborted, nothing pending. */
  lemma WrapperLeavesClean<R, E>(func: Conn -> (Conn, Result<R, E>), c: Conn)
    requires Settled(func(c).0)
    ensures func(c).1.Ok? ==> Clean(Wrapper(func, c).conn)
  {
  }

  /**
   A handler that raises gets no rollback: the connection it leaves, aborted or
   not, is handed back as it is, and the exception propagates.
   */
  lemma RaisingHandlerBypassesRollback<R, E>(func: Conn -> (Conn, Result<R, E>), c: Conn)
    requires func(c).1.Err?
    ensures Wrapper(func, c) == Wrapped(func(c).0, func(c).1, false)
    ensures func(c).0.status == InError ==> Wrapper(func, c).conn.status == InError
  {
  }

  /** `rollback_on_failure(func)` as written: the body defines `wrapper` but never returns it, so the decorator yields None. */
  function RollbackOnFailure<R(==), E(==)>(func: Conn -> (Conn, Result<R, E>)): (d: Option<Conn -> Wrapped<R, E>>)
    ensures d.None?
  {
    None
  }

  /** The decorator with its missing `return wrapper`. */
  function RollbackOnFailureIntended<R(==), E(==)>(func: Conn -> (Conn, Result<R, E>)): (d: Option<Conn -> Wrapped<R, E>>)
    ensures d.Some?
    ensures forall c :: d.value(c) == Wrapper(func, c)
  {
    Some(c => Wrapper(func, c))
  }

  /**
   After a handler that returns with the transaction aborted, the intended
   decorator hands back an idle connection reverted to the committed store; after
   one that raises, the aborted transaction stays. The decorator written hands
   back nothing at all.
   */
  lemma IntendedDecoratorRestoresConnection<R, E>(func: Conn -> (Conn, Result<R, E>), c: Conn)
    requires func(c).0.status == InError
    ensures RollbackOnFailure(func) == None
    ensures func(c).1.Ok? ==> RollbackOnFailureIntended(func).value(c).conn.status == Idle
    ensures func(c).1.Ok? ==> RollbackOnFailureIntended(func).value(c).conn.work == func(c).0.committed
    ensures func(c).1.Err? ==> RollbackOnFailureIntended(func).value(c).conn.status == InError
  {
  }
}

=== FILE: envelopes.dfy ===
/**
 The uniform response envelope `{code, success, message, results}` that every
 request handler returns, and the `exists` dictionary helper (utilities/__init__.py).
 */
module Envelopes {
  import opened Wrappers

  /** The dictionary built by `response`, `response_positive` and `response_error`. */
  datatype Envelope<+T> = Envelope(code: int, success: bool, message: string, results: Option<T>)

  /** `response(obj)`: a 200 carrying `obj`, where `None` stands for Python's None. */
  function Response<T>(obj: Option<T>): (e: Envelope<T>)
    ensures e.success && e.code == 200 && e.message == "Success"
    ensures e.results == obj
  {
    Envelope(200, true, "Success", obj)
  }

  /** `response(None)` cannot be told apart from `response_positive("Success")`. */
  lemma NoneResponseIsPositive<T>()
    ensures Response<T>(None) == ResponsePositive<T>("Success")
    ensures Response<T>(None) != ResponsePositive<T>("Success", 201)
  {
  }

  /** `response_positive(message, code = 200)`: a success without results. */
  function ResponsePositive<T>(message: string, code: int := 200): (e: Envelope<T>)
    ensures e.success && e.code == code && e.message == message
    ensures e.results == None
  {
    Envelope(code, true, message, None)
  }

  /** `response_error(message, code = 500)`: a failure without results. */
  function ResponseError<T>(message: string, code: int := 500): (e: Envelope<T>)
    ensures !e.success && e.code == code && e.message == message
    ensures e.results == None
  {
    Envelope(code, false, message, None)
  }

  /**
   Which of the three builders produced an envelope, with its arguments; `Data`
   is `response` with an object other than None.
   */
  datatype Built<+T> = Data(obj: T) | Positive(message: string, code: int) | Failure(message: string, code: int)

  function Build<T>(b: Built<T>): Envelope<T>
  {
    match b
    case Data(obj) => Response(Some(obj))
    case Positive(m, code) => ResponsePositive(m, code)
    case Failure(m, code) => ResponseError(m, code)
  }

  /** Envelopes some builder can produce. */
  predicate Buildable<T>(e: Envelope<T>)
  {
    if e.results.Some? then e.success && e.code == 200 && e.message == "Success"
    else true
  }

  /** Reads back which builder made an envelope. */
  function Classify<T>(e: Envelope<T>): (b: Built<T>)
    requires Buildable(e)
    ensures Build(b) == e
  {
    if e.results.Some? then Data(e.results.value)
    else if e.success then Positive(e.message, e.code)
    else Failure(e.message, e.code)
  }

  /** The builders have disjoint images and lose no argument: an envelope determines its builder call. */
  lemma BuildersAreInvertible<T>(b: Built<T>)
    ensures Buildable(Build(b))
    ensures Classify(Build(b)) == b
  {
  }

  /**
   The shape every handler's envelope has: success exactly on 200, results only
   on success, and an HTTP status from the set the handlers use.
   */
  predicate WellFormed<T>(e: Envelope<T>)
  {
    && (e.success <==> e.code == 200)
    && (e.results.Some? ==> e.success)
    && e.code in {200, 400, 403, 404, 500, 501}
  }

  // ---------------------------------------------------------------------------
  // `exists(d, k)`: try / except KeyError / finally, with the Python control
  // flow written out so that the effect of `return` inside `finally` is explicit.

  datatype PyException = KeyError | AssertionError

  /** How a Python block ends: falling through, returning, or raising. */
  datatype Completion = Normal | Return(value: bool) | Raise(exception: PyException)

  /** `try: ... finally: <fin>`: a `return` in the finally block replaces the pending completion. */
  function Finally(pending: Completion, fin: Completion): (c: Completion)
    ensures fin.Return? ==> c == fin
    ensures fin.Normal? ==> c == pending
  {
    if fin.Normal? then pending else fin
  }

  /**
   `exists(d, k)` as written: `assert(d[k])` raises KeyError on a missing key and
   AssertionError on a falsy value; `except KeyError: return False` handles the
   first; then `finally: return True` overrides every path. `truthy` is Python's
   truth value of the stored value.
   */
  function Exists<K, V>(d: map<K, V>, k: K, truthy: V -> bool): (r: bool)
    ensures r
  {
    var body := if k !in d then Raise(KeyError) else if !truthy(d[k]) then Raise(AssertionError) else Normal;
    var handled := if body == Raise(KeyError) then Return(false) else body;
    match Finally(handled, Return(true))
    case Return(v) => v
    case _ => false
  }

  /** As written, a missing key is reported as present, unlike the intended helper below. */
  lemma ExistsReportsMissingKey<K, V>(d: map<K, V>, k: K, truthy: V -> bool)
    requires k !in d
    ensures Exists(d, k, truthy) && !ExistsIntended(d, k)
  {
  }

  /** The helper its docstring describes: true exactly when the key is present. */
  function ExistsIntended<K, V>(d: map<K, V>, k: K): (r: bool)
    ensures r <==> k in d
  {
    var body := if k !in d then Raise(KeyError) else Normal;
    match body
    case Raise(_) => false
    case _ => true
  }

  /** The intended helper tells the missing key apart from a present one. */
  lemma ExistsIntendedSeparatesKeys<K, V>(d: map<K, V>, k: K, v: V)
    requires k !in d
    ensures !ExistsIntended(d, k)
    ensures ExistsIntended(d[k := v], k)
  {
  }
}

=== FILE: games.dfy ===
/** GET /game (pygsm.py): one game by UUID, or the recent games of a partition. */
module Games {
  import opened Wrappers
  import opened Envelopes
  import opened Store
  import opened Connection
  import opened Requests
  import Settings

  datatype GameRow = GameRow(gameUuid: Uuid, stamp: int)

  /** Created within the last `GAME_MAX_AGE` days. */
  predicate Recent(g: Game, now: int)
  {
    g.stamp > now - Settings.GameMaxAge * Settings.SecondsPerDay
  }

  /** The WHERE clause: the named game, or any recent one; in both cases only in the requested partition. */
  predicate GameSelected(key: Uuid, g: Game, now: int, byUuid: Option<Uuid>, dev: Option<bool>)
  {
    DevMatches(dev, g.dev) && (if byUuid.Some? then key == byUuid.value else Recent(g, now))
  }

  function SelectedGames(s: Store, now: int, byUuid: Option<Uuid>, dev: Option<bool>): set<GameRow>
  {
    set k | k in s.games && GameSelected(k, s.games[k], now, byUuid, dev) :: GameRow(k, s.games[k].stamp)
  }

  /**
   GET /game at wall-clock time `now`: the selected games in no particular order,
   or 404 when there are none. Age is judged by `now()`, the start of the open
   transaction.
   */
  function ListGames(c: Conn, auth: Option<AuthContext>, now: int, gameUuid: Option<Uuid> := None, dev: Option<bool> := Some(false)): (r: Reply<set<GameRow>>)
    ensures WellFormedReply(r)
    ensures r.conn.committed == c.committed && r.conn.work == c.work
    ensures PermissionGate(auth, dev).Denied? ==> r == Refused(c)
    ensures PermissionGate(auth, dev).Allowed? && c.status == InError ==> r.out == Uncaught(OtherError)
    ensures PermissionGate(auth, dev).Allowed? && c.status != InError ==>
      r.conn.status == InTransaction && r.conn.since == TxTime(c, now)
    ensures PermissionGate(auth, dev).Allowed? && c.status != InError ==>
      var filter := PermissionGate(auth, dev).dev;
      && r.out.Returned?
      && (r.out.env.success <==> exists k :: k in c.work.games && GameSelected(k, c.work.games[k], TxTime(c, now), gameUuid, filter))
      && (r.out.env.success ==>
           && r.out.env.results.Some?
           && forall row :: row in r.out.env.results.value <==>
                row.gameUuid in c.work.games && row.stamp == c.work.games[row.gameUuid].stamp
                && GameSelected(row.gameUuid, c.work.games[row.gameUuid], TxTime(c, now), gameUuid, filter))
      && (!r.out.env.success ==> r.out.env == ResponseError("No games found", 404))
  {
    match PermissionGate(auth, dev)
    case Denied => Refused(c)
    case Allowed(filter) =>
      match Read(c, now)
      case Err(e) => Reply(c, Uncaught(e))
      case Ok(c') =>
        var rows := SelectedGames(c.work, TxTime(c, now), gameUuid, filter);
        if |rows| > 0 then
          assert exists k :: k in c.work.games && GameSelected(k, c.work.games[k], TxTime(c, now), gameUuid, filter) by {
            var row :| row in rows;
          }
          Reply(c', Returned(Response(Some(rows))))
        else
          assert forall k :: k in c.work.games && GameSelected(k, c.work.games[k], TxTime(c, now), gameUuid, filter) ==> GameRow(k, c.work.games[k].stamp) in rows;
          Reply(c', Returned(ResponseError("No games found", 404)))
  }

  /** A game looked up by UUID is found regardless of its age, but only within the caller's partition. */
  lemma LookupIgnoresAge(c: Conn, auth: Option<AuthContext>, now: int, u: Uuid, dev: Option<bool>)
    requires Clean(c) && PermissionGate(auth, dev).Allowed?
    requires u in c.committed.games && DevMatches(PermissionGate(auth, dev).dev, c.committed.games[u].dev)
    ensures ListGames(c, auth, now, Some(u), dev).out.env.results == Some({GameRow(u, c.committed.games[u].stamp)})
  {
    var r := ListGames(c, auth, now, Some(u), dev);
    assert GameSelected(u, c.work.games[u], TxTime(c, now), Some(u), PermissionGate(auth, dev).dev);
    assert r.out.env.success;
    assert r.out.env.results.value == {GameRow(u, c.committed.games[u].stamp)};
  }
}

=== FILE: leaderboard.dfy ===
/**
 The leaderboard endpoints of pygsm.py: reading aggregated scores, adding a
 stats entry, and registering a kill.
 */
module Leaderboard {
  import opened Wrappers
  import opened Envelopes
  import opened Store
  import opened Connection
  import opened Requests

  datatype Score = Score(kills: int, deaths: int)

  function Plus(a: Score, b: Score): Score
  {
    Score(a.kills + b.kills, a.deaths + b.deaths)
  }

  /** What one entry adds to a player's totals. */
  function Contribution(e: Entry, player: int): Score
  {
    if e.player == player then Score(e.kills, e.deaths) else Score(0, 0)
  }

  /** `COALESCE(SUM(kills), 0), COALESCE(SUM(deaths), 0)` over the player's entries. */
  function Tally(l: seq<Entry>, player: int): (t: Score)
    ensures (forall i :: 0 <= i < |l| ==> l[i].player != player) ==> t == Score(0, 0)
  {
    if |l| == 0 then Score(0, 0)
    else Plus(Contribution(l[0], player), Tally(l[1..], player))
  }

  /** Appending an entry adds exactly its contribution to every player's totals. */
  lemma {:induction false} TallyAppend(l: seq<Entry>, e: Entry, player: int)
    ensures Tally(l + [e], player) == Plus(Tally(l, player), Contribution(e, player))
    decreases |l|
  {
    if |l| == 0 {
      assert l + [e] == [e];
      assert [e][1..] == [];
    } else {
      assert (l + [e])[1..] == l[1..] + [e];
      TallyAppend(l[1..], e, player);
    }
  }

  /** The entries with this `leaderboard_id`, in order. */
  function WithId(l: seq<Entry>, id: int): (r: seq<Entry>)
    ensures forall e :: e in r <==> e in l && e.id == id
    ensures |r| <= |l|
  {
    if |l| == 0 then []
    else if l[0].id == id then [l[0]] + WithId(l[1..], id)
    else WithId(l[1..], id)
  }

  /** A result row: a player and its summed kills and deaths. */
  datatype BoardRow = BoardRow(player: int, kills: int, deaths: int)

  function RowOf(player: int, t: Score): BoardRow
  {
    BoardRow(player, t.kills, t.deaths)
  }

  /** Which query the parameters pick, tried in the handler's order. */
  datatype Selector = ByPlayer(player: int) | ByGame(game: Uuid) | ByEntry(entry: int) | Unspecified

  function Select(playerId: Option<int>, gameUuid: Option<Uuid>, leaderboardId: Option<int>): (sel: Selector)
    ensures sel.ByPlayer? <==> Truthy(playerId)
    ensures sel.ByPlayer? ==> sel.player == playerId.value
    ensures sel.ByGame? <==> !Truthy(playerId) && gameUuid.Some?
    ensures sel.ByGame? ==> sel.game == gameUuid.value
    ensures sel.ByEntry? <==> !Truthy(playerId) && gameUuid.None? && Truthy(leaderboardId)
    ensures sel.ByEntry? ==> sel.entry == leaderboardId.value
  {
    if Truthy(playerId) then ByPlayer(playerId.value)
    else if gameUuid.Some? then ByGame(gameUuid.value)
    else if Truthy(leaderboardId) then ByEntry(leaderboardId.value)
    else Unspecified
  }

  function BoardRows(s: Store, sel: Selector): set<BoardRow>
  {
    match sel
    case ByPlayer(p) => if p in s.players then {RowOf(p, Tally(s.leaderboard, p))} else {}
    case ByGame(u) => set p | p in s.players && s.players[p].gameUuid == u :: RowOf(p, Tally(s.leaderboard, p))
    case ByEntry(id) =>
      var m := WithId(s.leaderboard, id);
      set e | e in m :: RowOf(e.player, Tally(m, e.player))
    case Unspecified => {}
  }

  const NotAggregated := "Aggregate leaderboard not yet implemented.  For now, at least one parameter must be specified."

  /**
   GET /leaderboard at wall-clock time `now`. After the permission gate, a request naming no player,
   game or entry is answered 501 without a query; otherwise the chosen query's
   rows are returned in no particular order, or 404 when there are none.
   */
  function ReadLeaderboard(c: Conn, auth: Option<AuthContext>, now: int, playerId: Option<int> := None, gameUuid: Option<Uuid> := None, leaderboardId: Option<int> := None, dev: Option<bool> := Some(false)): (r: Reply<set<BoardRow>>)
    ensures WellFormedReply(r)
    ensures r.conn.committed == c.committed && r.conn.work == c.work
    ensures PermissionGate(auth, dev).Denied? ==> r == Refused(c)
    ensures PermissionGate(auth, dev).Allowed? && !Truthy(playerId) && gameUuid.None? && !Truthy(leaderboardId) ==>
      r == Reply(c, Returned(ResponseError(NotAggregated, 501)))
    ensures PermissionGate(auth, dev).Allowed? && Select(playerId, gameUuid, leaderboardId) != Unspecified && c.status == InError ==>
      r.out == Uncaught(OtherError)
    ensures PermissionGate(auth, dev).Allowed? && Select(playerId, gameUuid, leaderboardId) != Unspecified && c.status != InError ==>
      r.conn.status == InTransaction && r.conn.since == TxTime(c, now)
    ensures PermissionGate(auth, dev).Allowed? && c.status != InError ==>
      var l := c.work.leaderboard;
      && (Truthy(playerId) ==>
           && r.out.Returned?
           && (r.out.env.success <==> playerId.value in c.work.players)
           && (r.out.env.success ==> r.out.env.results == Some({RowOf(playerId.value, Tally(l, playerId.value))})))
      && (!Truthy(playerId) && gameUuid.Some? ==>
           && r.out.Returned?
           && (r.out.env.success <==> exists p :: p in c.work.players && c.work.players[p].gameUuid == gameUuid.value)
           && (r.out.env.success ==> r.out.env.results.Some? && forall row :: row in r.out.env.results.value <==>
                 && row.player in c.work.players && c.work.players[row.player].gameUuid == gameUuid.value
                 && row == RowOf(row.player, Tally(l, row.player))))
      && (!Truthy(playerId) && gameUuid.None? && Truthy(leaderboardId) ==>
           var m := WithId(l, leaderboardId.value);
           && r.out.Returned?
           && (r.out.env.success <==> exists e :: e in l && e.id == leaderboardId.value)
           && (r.out.env.success ==> r.out.env.results.Some? && forall row :: row in r.out.env.results.value <==>
                 && (exists e :: e in l && e.id == leaderboardId.value && e.player == row.player)
                 && row == RowOf(row.player, Tally(m, row.player))))
      && (r.out.Returned? && !r.out.env.success && Select(playerId, gameUuid, leaderboardId) != Unspecified ==>
           r.out.env == ResponseError("No leaderboard entries found.", 404))
  {
    match PermissionGate(auth, dev)
    case Denied => Refused(c)
    case Allowed(_) =>
      var sel := Select(playerId, gameUuid, leaderboardId);
      if sel.Unspecified? then Reply(c, Returned(ResponseError(NotAggregated, 501)))
      else
        match Read(c, now)
        case Err(e) => Reply(c, Uncaught(e))
        case Ok(c') =>
          var rows := BoardRows(c.work, sel);
          if |rows| > 0 then
            assert sel.ByGame? ==> exists p :: p in c.work.players && c.work.players[p].gameUuid == sel.game by {
              var row :| row in rows;
            }
            assert sel.ByEntry? ==> exists e :: e in c.work.leaderboard && e.id == sel.entry by {
              var row :| row in rows;
            }
            Reply(c', Returned(Response(Some(rows))))
          else
            assert sel.ByGame? ==> forall p :: p in c.work.players && c.work.players[p].gameUuid == sel.game ==>
              RowOf(p, Tally(c.work.leaderboard, p)) in rows;
            assert sel.ByEntry? ==> forall e :: e in c.work.leaderboard && e.id == sel.entry ==>
              RowOf(e.player, Tally(WithId(c.work.leaderboard, sel.entry), e.player)) in rows;
            Reply(c', Returned(ResponseError("No leaderboard entries found.", 404)))
  }

  /** Two entries of one player, `(2, 0)` and `(1, 3)`, are reported as `(3, 3)`. */
  lemma EntriesAreSummed(c: Conn, auth: Option<AuthContext>, now: int, u: Uuid, pid: int)
    requires Clean(c) && PermissionGate(auth, Some(false)).Allowed? && pid != 0
    requires c.work.players == map[pid := Player(u, "{}")]
    requires c.work.leaderboard == [Entry(1, pid, 2, 0), Entry(2, pid, 1, 3)]
    ensures ReadLeaderboard(c, auth, now, Some(pid)).out.env.results == Some({BoardRow(pid, 3, 3)})
  {
    var l := c.work.leaderboard;
    assert l[1..][1..] == [];
    assert Tally(l, pid) == Score(3, 3);
  }

  /** A player with no entries is still listed, with zero kills and deaths. */
  lemma NoEntriesReadsZero(c: Conn, auth: Option<AuthContext>, now: int, pid: int)
    requires Clean(c) && PermissionGate(auth, Some(false)).Allowed? && pid != 0
    requires pid in c.work.players && forall e :: e in c.work.leaderboard ==> e.player != pid
    ensures ReadLeaderboard(c, auth, now, Some(pid)).out.env.results == Some({BoardRow(pid, 0, 0)})
  {
    assert forall i :: 0 <= i < |c.work.leaderboard| ==> c.work.leaderboard[i] in c.work.leaderboard;
  }

  /**
   POST /game-player/stats. Any exception of the insert is answered without a
   rollback; an insert that affects no row is rolled back; otherwise the entry
   is committed.
   */
  function AddStats(c: Conn, playerId: int, kills: int, deaths: int, entryId: int, fault: Fault): (r: Reply<()>)
    ensures r.out.Returned? && WellFormed(r.out.env)
    ensures Intact(c) ==> Intact(r.conn)
    ensures r.out.env.success <==> c.status != InError && fault == NoFault && playerId in c.work.players
    ensures r.out.env.success ==>
      && r.out.env == ResponsePositive("Successfully added player stats.")
      && Clean(r.conn) && r.conn.status == Idle
      && r.conn.committed == c.work.(leaderboard := c.work.leaderboard + [Entry(entryId, playerId, kills, deaths)])
    ensures !r.out.env.success ==> r.conn.committed == c.committed
    ensures c.status == InError || fault == Fails || playerId !in c.work.players ==>
      r == Reply(c.(status := InError), Returned(ResponseError(InternalError)))
    ensures c.status != InError && fault == NoRows && playerId in c.work.players ==>
      r == Reply(Rollback(c), Returned(ResponseError("Player stats insert failed!")))
  {
    var x := Execute(c, fault, InsertEntry(Entry(entryId, playerId, kills, deaths)));
    match x.rows
    case Raised(_) => Reply(x.conn, Returned(ResponseError(InternalError)))
    case Rows(n) =>
      if n < 1 then Reply(Rollback(x.conn), Returned(ResponseError("Player stats insert failed!")))
      else Reply(Commit(x.conn), Returned(ResponsePositive("Successfully added player stats.")))
  }

  /** Adding stats raises the player's totals by exactly the new entry and leaves every other player's totals alone. */
  lemma StatsAccumulate(c: Conn, playerId: int, kills: int, deaths: int, entryId: int, other: int)
    requires Clean(c) && playerId in c.work.players && other != playerId
    ensures
      var after := AddStats(c, playerId, kills, deaths, entryId, NoFault).conn.committed.leaderboard;
      && Tally(after, playerId) == Plus(Tally(c.committed.leaderboard, playerId), Score(kills, deaths))
      && Tally(after, other) == Tally(c.committed.leaderboard, other)
  {
    var e := Entry(entryId, playerId, kills, deaths);
    TallyAppend(c.committed.leaderboard, e, playerId);
    TallyAppend(c.committed.leaderboard, e, other);
  }

  /** Stats added for a player are read back through the leaderboard, on top of what was there. */
  lemma StatsReadBack(c: Conn, auth: Option<AuthContext>, now: int, playerId: int, kills: int, deaths: int, entryId: int)
    requires Clean(c) && playerId != 0 && playerId in c.work.players && PermissionGate(auth, Some(false)).Allowed?
    ensures
      var before := Tally(c.work.leaderboard, playerId);
      var after := AddStats(c, playerId, kills, deaths, entryId, NoFault).conn;
      ReadLeaderboard(after, auth, now, Some(playerId)).out.env.results
        == Some({BoardRow(playerId, before.kills + kills, before.deaths + deaths)})
  {
    var e := Entry(entryId, playerId, kills, deaths);
    var after := AddStats(c, playerId, kills, deaths, entryId, NoFault).conn;
    assert after.status == Idle && after.work == c.work.(leaderboard := c.work.leaderboard + [e]);
    TallyAppend(c.work.leaderboard, e, playerId);
    var r := ReadLeaderboard(after, auth, now, Some(playerId));
    assert r.out.env.results == Some({RowOf(playerId, Tally(after.work.leaderboard, playerId))});
  }

  /** How one step of register-kill ended. */
  datatype Step = Skipped | Recorded | Failed(integrity: bool, message: string)

  datatype Stepped = Stepped(conn: Conn, step: Step)

  /** The messages of one step: the row-count failure and the foreign-key failure. */
  datatype StepTexts = StepTexts(noRow: string, invalid: string)

  const KillTexts := StepTexts("Player kill increment failed!", "Player kill increment failed! Invalid game_player_id?")
  const DeathTexts := StepTexts("Player death increment failed!", "Player death increment failed! Invalid game_player_id?")

  /** One guarded insert of register-kill: committed on success, rolled back on any failure. */
  function KillStep(c: Conn, entry: Entry, fault: Fault, texts: StepTexts): (s: Stepped)
    ensures Intact(c) ==> Intact(s.conn)
    ensures s.step != Skipped
    ensures s.step == Recorded <==> c.status != InError && fault == NoFault && entry.player in c.work.players
    ensures s.step == Recorded ==>
      var w := c.work.(leaderboard := c.work.leaderboard + [entry]);
      s.conn == Conn(w, w, Idle, c.since)
    ensures s.step.Failed? ==> s.conn == Rollback(c)
    ensures s.step.Failed? && s.step.integrity <==> c.status != InError && fault != Fails && entry.player !in c.work.players
    ensures s.step.Failed? && s.step.integrity ==> s.step.message == texts.invalid
    ensures s.step.Failed? && (c.status == InError || fault == Fails) ==> s.step.message == InternalError
    ensures s.step.Failed? && !s.step.integrity && c.status != InError && fault != Fails ==> s.step.message == texts.noRow
  {
    var x := Execute(c, fault, InsertEntry(entry));
    match x.rows
    case Raised(IntegrityError) => Stepped(Rollback(x.conn), Failed(true, texts.invalid))
    case Raised(OtherError) => Stepped(Rollback(x.conn), Failed(false, InternalError))
    case Rows(n) =>
      if n < 1 then Stepped(Rollback(x.conn), Failed(false, texts.noRow))
      else Stepped(Commit(x.conn), Recorded)
  }

  function Messages(s: Step): seq<string>
  {
    if s.Failed? then [s.message] else []
  }

  /** `sep.join(parts)`. */
  function Join(parts: seq<string>, sep: string): (r: string)
    ensures |parts| == 1 ==> r == parts[0]
    ensures |parts| == 2 ==> r == parts[0] + sep + parts[1]
  {
    if |parts| == 0 then ""
    else if |parts| == 1 then parts[0]
    else parts[0] + sep + Join(parts[1..], sep)
  }

  /** The envelope register-kill answers with once both steps have run. */
  function Combine(alive: Step, dead: Step): (e: Envelope<()>)
    ensures WellFormed(e)
    ensures e.success <==> !alive.Failed? && !dead.Failed?
    ensures e.success ==> e == ResponsePositive("Successfully updated player stats.")
    ensures !e.success ==> (e.code == 400 <==> (alive.Failed? && alive.integrity) || (dead.Failed? && dead.integrity))
    ensures alive.Failed? && !dead.Failed? ==> e.message == alive.message
    ensures !alive.Failed? && dead.Failed? ==> e.message == dead.message
    ensures alive.Failed? && dead.Failed? ==> e.message == alive.message + " " + dead.message
  {
    if alive.Failed? || dead.Failed? then
      var code := if (alive.Failed? && alive.integrity) || (dead.Failed? && dead.integrity) then 400 else 500;
      ResponseError(Join(Messages(alive) + Messages(dead), " "), code)
    else ResponsePositive("Successfully updated player stats.")
  }

  /** The generated entry ids and the engine faults of register-kill's two inserts. */
  datatype KillEngine = KillEngine(aliveEntry: int, deadEntry: int, aliveFault: Fault, deadFault: Fault)

  /**
   POST /register-kill: a kill for the surviving player, then a death for the
   killed one, each committed or rolled back on its own.
   */
  function RegisterKill(c: Conn, alive: int, dead: Option<int>, eng: KillEngine): (r: Reply<()>)
    ensures r.out.Returned? && WellFormed(r.out.env)
    ensures Intact(c) ==> Intact(r.conn)
    ensures alive == 0 && !Truthy(dead) ==> r == Reply(c, Returned(ResponseError("Invalid parameters", 400)))
    ensures alive != 0 || Truthy(dead) ==> Clean(r.conn) && r.conn.status == Idle
    ensures (alive != 0 || Truthy(dead)) && r.out.env.success ==>
      && (alive != 0 ==> eng.aliveFault == NoFault && alive in c.work.players)
      && (Truthy(dead) ==> eng.deadFault == NoFault && dead.value in c.work.players)
    ensures Settled(c) ==>
      var kill := if alive != 0 && c.status != InError && eng.aliveFault == NoFault && alive in c.committed.players
        then [Entry(eng.aliveEntry, alive, 1, 0)] else [];
      var death := if Truthy(dead) && (alive != 0 || c.status != InError) && eng.deadFault == NoFault && dead.value in c.committed.players
        then [Entry(eng.deadEntry, dead.value, 0, 1)] else [];
      r.conn.committed == c.committed.(leaderboard := c.committed.leaderboard + kill + death)
    ensures Settled(c) && (alive != 0 || Truthy(dead)) ==>
      var killOk := c.status != InError && eng.aliveFault == NoFault && alive in c.committed.players;
      var deathOk := dead.Some? && (alive != 0 || c.status != InError) && eng.deadFault == NoFault && dead.value in c.committed.players;
      && (r.out.env.success <==> (alive != 0 ==> killOk) && (Truthy(dead) ==> deathOk))
      && (!r.out.env.success ==>
           (r.out.env.code == 400 <==>
              || (alive != 0 && c.status != InError && eng.aliveFault != Fails && alive !in c.committed.players)
              || (Truthy(dead) && (alive != 0 || c.status != InError) && eng.deadFault != Fails && dead.value !in c.committed.players)))
  {
    if alive == 0 && !Truthy(dead) then Reply(c, Returned(ResponseError("Invalid parameters", 400)))
    else
      var a := if alive != 0 then KillStep(c, Entry(eng.aliveEntry, alive, 1, 0), eng.aliveFault, KillTexts) else Stepped(c, Skipped);
      var d := if Truthy(dead) then KillStep(a.conn, Entry(eng.deadEntry, dead.value, 0, 1), eng.deadFault, DeathTexts) else Stepped(a.conn, Skipped);
      Reply(d.conn, Returned(Combine(a.step, d.step)))
  }

  /**
   A valid killer and an unknown victim: the kill is kept, the death is
   refused, and the caller sees the victim's error with code 400.
   */
  lemma KillSurvivesInvalidVictim(c: Conn, alive: int, dead: int, eng: KillEngine)
    requires Clean(c) && eng.aliveFault == NoFault && eng.deadFault == NoFault
    requires alive != 0 && alive in c.work.players && dead != 0 && dead !in c.work.players
    ensures
      var r := RegisterKill(c, alive, Some(dead), eng);
      && r.out.env == ResponseError("Player death increment failed! Invalid game_player_id?", 400)
      && Tally(r.conn.committed.leaderboard, alive) == Plus(Tally(c.committed.leaderboard, alive), Score(1, 0))
  {
    TallyAppend(c.committed.leaderboard, Entry(eng.aliveEntry, alive, 1, 0), alive);
  }

  /**
   On a connection a failed request left aborted, the kill step fails with the
   generic 500 and rolls the transaction back, after which the victim's death is
   still recorded.
   */
  lemma PoisonedKillStillRecordsDeath(c: Conn, alive: int, dead: int, eng: KillEngine)
    requires Settled(c) && c.status == InError && eng.deadFault == NoFault
    requires alive != 0 && dead != 0 && dead in c.committed.players
    ensures
      var r := RegisterKill(c, alive, Some(dead), eng);
      && r.out.env == ResponseError(InternalError, 500)
      && r.conn.committed.leaderboard == c.committed.leaderboard + [Entry(eng.deadEntry, dead, 0, 1)]
  {
  }
}

=== FILE: players.dfy ===
/** GET and POST /game-player (pygsm.py): listing players and registering one. */
module Players {
  import opened Wrappers
  import opened Envelopes
  import opened Store
  import opened Connection
  import opened Requests
  import Games

  /** A listed player; `meta` is present only when one player was asked for by id. */
  datatype PlayerRow = PlayerRow(id: int, gameUuid: Uuid, meta: Option<Meta>)

  /**
   The three queries, in the handler's order: by a truthy `game_player_id`; else
   by `game_uuid`; else every player of a recent game in the requested partition.
   */
  predicate PlayerSelected(s: Store, id: int, p: Player, now: int, playerId: Option<int>, gameUuid: Option<Uuid>, dev: Option<bool>)
  {
    if Truthy(playerId) then id == playerId.value
    else if gameUuid.Some? then p.gameUuid == gameUuid.value
    else p.gameUuid in s.games && Games.Recent(s.games[p.gameUuid], now) && DevMatches(dev, s.games[p.gameUuid].dev)
  }

  function RowOf(id: int, p: Player, withMeta: bool): PlayerRow
  {
    PlayerRow(id, p.gameUuid, if withMeta then Some(p.meta) else None)
  }

  function SelectedPlayers(s: Store, now: int, playerId: Option<int>, gameUuid: Option<Uuid>, dev: Option<bool>): set<PlayerRow>
  {
    set id | id in s.players && PlayerSelected(s, id, s.players[id], now, playerId, gameUuid, dev) :: RowOf(id, s.players[id], Truthy(playerId))
  }

  /**
   GET /game-player at wall-clock time `now`: the selected players in no
   particular order, or 404 when there are none. Recency is judged by `now()`,
   the start of the open transaction.
   */
  function ListPlayers(c: Conn, auth: Option<AuthContext>, now: int, playerId: Option<int> := None, gameUuid: Option<Uuid> := None, dev: Option<bool> := Some(false)): (r: Reply<set<PlayerRow>>)
    ensures WellFormedReply(r)
    ensures r.conn.committed == c.committed && r.conn.work == c.work
    ensures PermissionGate(auth, dev).Denied? ==> r == Refused(c)
    ensures PermissionGate(auth, dev).Allowed? && c.status == InError ==> r.out == Uncaught(OtherError)
    ensures PermissionGate(auth, dev).Allowed? && c.status != InError ==>
      r.conn.status == InTransaction && r.conn.since == TxTime(c, now)
    ensures PermissionGate(auth, dev).Allowed? && c.status != InError ==>
      var filter := PermissionGate(auth, dev).dev;
      && r.out.Returned?
      && (r.out.env.success <==> exists id :: id in c.work.players && PlayerSelected(c.work, id, c.work.players[id], TxTime(c, now), playerId, gameUuid, filter))
      && (r.out.env.success ==>
           && r.out.env.results.Some?
           && (forall row :: row in r.out.env.results.value ==> (row.meta.Some? <==> Truthy(playerId)))
           && forall row :: row in r.out.env.results.value <==>
                && row.id in c.work.players
                && PlayerSelected(c.work, row.id, c.work.players[row.id], TxTime(c, now), playerId, gameUuid, filter)
                && row.gameUuid == c.work.players[row.id].gameUuid
                && row.meta == (if Truthy(playerId) then Some(c.work.players[row.id].meta) else None))
      && (!r.out.env.success ==> r.out.env == ResponseError("No players found.", 404))
  {
    match PermissionGate(auth, dev)
    case Denied => Refused(c)
    case Allowed(filter) =>
      match Read(c, now)
      case Err(e) => Reply(c, Uncaught(e))
      case Ok(c') =>
        var rows := SelectedPlayers(c.work, TxTime(c, now), playerId, gameUuid, filter);
        if |rows| > 0 then
          assert exists id :: id in c.work.players && PlayerSelected(c.work, id, c.work.players[id], TxTime(c, now), playerId, gameUuid, filter) by {
            var row :| row in rows;
          }
          Reply(c', Returned(Response(Some(rows))))
        else
          assert forall id :: id in c.work.players && PlayerSelected(c.work, id, c.work.players[id], TxTime(c, now), playerId, gameUuid, filter) ==>
            RowOf(id, c.work.players[id], Truthy(playerId)) in rows;
          Reply(c', Returned(ResponseError("No players found.", 404)))
  }

  /**
   POST /game-player. The zero UUID is refused before any statement; the
   insert's exceptions are answered without a rollback; an insert that affects
   no row is rolled back; a recorded player is committed and its game echoed.
   */
  function AddPlayer(c: Conn, gameUuid: Uuid, meta: Meta, generatedId: int, fault: Fault): (r: Reply<seq<Uuid>>)
    ensures r.out.Returned? && WellFormed(r.out.env)
    ensures Intact(c) ==> Intact(r.conn)
    ensures !r.out.env.success ==> r.conn.committed == c.committed
    ensures gameUuid == ZeroUuid ==> r == Reply(c, Returned(ResponseError("Invalid UUID")))
    ensures r.out.env.success <==>
      gameUuid != ZeroUuid && c.status != InError && fault == NoFault && gameUuid in c.work.games && generatedId !in c.work.players
    ensures r.out.env.success ==>
      && r.out.env.results == Some([gameUuid])
      && Clean(r.conn) && r.conn.status == Idle
      && r.conn.committed == c.work.(players := c.work.players[generatedId := Player(gameUuid, meta)])
    ensures gameUuid != ZeroUuid && c.status != InError && fault != Fails && Apply(c.work, InsertPlayer(generatedId, gameUuid, meta)).Violation? ==>
      r == Reply(c.(status := InError), Returned(ResponseError("Invalid game_uuid provided")))
    ensures gameUuid != ZeroUuid && (c.status == InError || fault == Fails) ==>
      r == Reply(c.(status := InError), Returned(ResponseError(InternalError)))
    ensures gameUuid != ZeroUuid && c.status != InError && fault == NoRows && !Apply(c.work, InsertPlayer(generatedId, gameUuid, meta)).Violation? ==>
      r == Reply(Rollback(c), Returned(ResponseError("Player insert failed!")))
  {
    if gameUuid == ZeroUuid then Reply(c, Returned(ResponseError("Invalid UUID")))
    else
      var x := Execute(c, fault, InsertPlayer(generatedId, gameUuid, meta));
      match x.rows
      case Raised(IntegrityError) => Reply(x.conn, Returned(ResponseError("Invalid game_uuid provided")))
      case Raised(OtherError) => Reply(x.conn, Returned(ResponseError(InternalError)))
      case Rows(n) =>
        if n < 1 then Reply(Rollback(x.conn), Returned(ResponseError("Player insert failed!")))
        else Reply(Commit(x.conn), Returned(Response(Some([gameUuid]))))
  }

  /** A player just registered is then listed under its id, with its metadata. */
  lemma AddedPlayerIsListed(c: Conn, auth: Option<AuthContext>, now: int, gameUuid: Uuid, meta: Meta, id: int)
    requires Clean(c) && gameUuid != ZeroUuid && gameUuid in c.work.games && id !in c.work.players && id != 0
    requires PermissionGate(auth, Some(false)).Allowed?
    ensures
      var added := AddPlayer(c, gameUuid, meta, id, NoFault);
      ListPlayers(added.conn, auth, now, Some(id)).out.env.results == Some({PlayerRow(id, gameUuid, Some(meta))})
  {
    var added := AddPlayer(c, gameUuid, meta, id, NoFault);
    var s := added.conn.work;
    assert s.players[id] == Player(gameUuid, meta);
    var r := ListPlayers(added.conn, auth, now, Some(id));
    assert PlayerSelected(s, id, s.players[id], TxTime(added.conn, now), Some(id), None, Some(false));
    assert r.out.env.results.value == {PlayerRow(id, gameUuid, Some(meta))};
  }

  /** A player can only join a game that exists; the refused insert is not rolled back, so the transaction stays aborted. */
  lemma AddPlayerNeedsAGame(c: Conn, gameUuid: Uuid, meta: Meta, id: int)
    requires Clean(c) && gameUuid != ZeroUuid && gameUuid !in c.work.games
    ensures
      var r := AddPlayer(c, gameUuid, meta, id, NoFault);
      && r.out.env == ResponseError("Invalid game_uuid provided", 500)
      && r.conn.committed == c.committed && r.conn.status == InError
  {
  }

  /**
   Lookups by id or by game do not consult the `dev` filter: whichever
   partition an allowed caller names, the same players are listed.
   */
  lemma TargetedListingIgnoresPartition(c: Conn, auth: Option<AuthContext>, now: int, playerId: Option<int>, gameUuid: Option<Uuid>, dev1: Option<bool>, dev2: Option<bool>)
    requires Truthy(playerId) || gameUuid.Some?
    requires PermissionGate(auth, dev1).Allowed? && PermissionGate(auth, dev2).Allowed?
    ensures ListPlayers(c, auth, now, playerId, gameUuid, dev1) == ListPlayers(c, auth, now, playerId, gameUuid, dev2)
  {
    assert forall id, p ::
      PlayerSelected(c.work, id, p, TxTime(c, now), playerId, gameUuid, PermissionGate(auth, dev1).dev) == PlayerSelected(c.work, id, p, TxTime(c, now), playerId, gameUuid, PermissionGate(auth, dev2).dev);
    assert SelectedPlayers(c.work, TxTime(c, now), playerId, gameUuid, PermissionGate(auth, dev1).dev) == SelectedPlayers(c.work, TxTime(c, now), playerId, gameUuid, PermissionGate(auth, dev2).dev);
  }
}

=== FILE: pytext.dfy ===
/**
 The parts of Python's text handling that the PSK format checks rely on:
 `str.strip`, `str.replace(pattern, '')` and the grammar `int(text, 16)` accepts.
 */
module PyText {

  predicate IsHexDigit(c: char)
  {
    '0' <= c <= '9' || 'a' <= c <= 'f' || 'A' <= c <= 'F'
  }

  /**
   Whitespace `int()` skips around a number: the six ASCII spaces of C's
   `isspace` (space, tab, LF, VT, FF, CR), and the Latin-1 spaces NEL and NBSP,
   which `int()` first maps to a space. The ASCII separators U+001C..U+001F,
   although `str.isspace` holds for them, are not skipped.
   */
  predicate IsPySpace(c: char)
  {
    c == ' ' || '\t' <= c <= '\r' || c == '\U{0085}' || c == '\U{00A0}'
  }

  /** Drops leading characters satisfying `drop` (`str.lstrip`). */
  function StripLeft(s: string, drop: char -> bool): (r: string)
    ensures |r| <= |s| && r == s[|s| - |r|..]
    ensures forall i :: 0 <= i < |s| - |r| ==> drop(s[i])
    ensures |r| > 0 ==> !drop(r[0])
    ensures forall c :: c in s ==> c in r || drop(c)
  {
    if |s| > 0 && drop(s[0]) then
      assert s == [s[0]] + s[1..];
      StripLeft(s[1..], drop)
    else s
  }

  /** Drops trailing characters satisfying `drop` (`str.rstrip`). */
  function StripRight(s: string, drop: char -> bool): (r: string)
    ensures |r| <= |s| && r == s[..|r|]
    ensures forall i :: |r| <= i < |s| ==> drop(s[i])
    ensures |r| > 0 ==> !drop(r[|r| - 1])
    ensures forall c :: c in s ==> c in r || drop(c)
  {
    if |s| > 0 && drop(s[|s| - 1]) then
      assert s == s[..|s| - 1] + [s[|s| - 1]];
      StripRight(s[..|s| - 1], drop)
    else s
  }

  /** `str.strip` with a character class. */
  function Strip(s: string, drop: char -> bool): (r: string)
    ensures |r| <= |s|
    ensures |r| > 0 ==> !drop(r[0]) && !drop(r[|r| - 1])
    ensures forall c :: c in s ==> c in r || drop(c)
  {
    StripRight(StripLeft(s, drop), drop)
  }

  /** A string none of whose end characters `drop` removes is left as it is by `Strip`. */
  lemma StripKeeps(s: string, drop: char -> bool)
    requires |s| > 0 && !drop(s[0]) && !drop(s[|s| - 1])
    ensures Strip(s, drop) == s
  {
  }

  /** `s.replace(pat, '')`: occurrences removed left to right, without overlap and without rescanning. */
  function RemoveAll(s: string, pat: string): (r: string)
    requires |pat| > 0
    ensures |r| <= |s|
    ensures forall c :: c in r ==> c in s
    decreases |s|
  {
    if |s| == 0 then s
    else if pat <= s then
      var r := RemoveAll(s[|pat|..], pat);
      assert forall c :: c in s[|pat|..] ==> c in s;
      r
    else
      var r := RemoveAll(s[1..], pat);
      assert forall c :: c in s[1..] ==> c in s;
      [s[0]] + r
  }

  /** A text without the pattern's first character has nothing to remove. */
  lemma {:induction false} RemoveAllAbsent(s: string, pat: string)
    requires |pat| > 0 && pat[0] !in s
    ensures RemoveAll(s, pat) == s
    decreases |s|
  {
    if |s| > 0 {
      assert !(pat <= s) by { assert s[0] in s; }
      assert pat[0] !in s[1..] by { assert forall c :: c in s[1..] ==> c in s; }
      RemoveAllAbsent(s[1..], pat);
      assert s == [s[0]] + s[1..];
    }
  }

  /** A leading occurrence is removed outright. */
  lemma RemoveAllLeading(pat: string, s: string)
    requires |pat| > 0
    ensures RemoveAll(pat + s, pat) == RemoveAll(s, pat)
  {
    assert pat <= pat + s;
    assert (pat + s)[|pat|..] == s;
  }

  /** Removing a single character distributes over concatenation. */
  lemma {:induction false} RemoveCharConcat(a: string, b: string, c: char)
    ensures RemoveAll(a + b, [c]) == RemoveAll(a, [c]) + RemoveAll(b, [c])
    decreases |a|
  {
    if |a| > 0 {
      assert (a + b)[1..] == a[1..] + b;
      assert [c] <= a + b <==> [c] <= a;
      RemoveCharConcat(a[1..], b, c);
    } else {
      assert a + b == b;
    }
  }

  /** Digits of base 16 with single underscores between them, as `int(_, 16)` admits after its prefix. */
  predicate HexDigits(v: string)
  {
    && |v| > 0
    && IsHexDigit(v[0])
    && IsHexDigit(v[|v| - 1])
    && forall i :: 0 < i < |v| - 1 ==> DigitOrSeparator(v, i)
  }

  /** Position `i` holds a digit, or an underscore between two digits. */
  predicate DigitOrSeparator(v: string, i: int)
    requires 0 < i < |v| - 1
  {
    IsHexDigit(v[i]) || (v[i] == '_' && IsHexDigit(v[i - 1]) && IsHexDigit(v[i + 1]))
  }

  /** An optional leading sign. */
  function SignStripped(t: string): (r: string)
    ensures r == t || (|t| > 0 && r == t[1..])
    ensures forall c :: c in t ==> c in r || c == '+' || c == '-'
  {
    if |t| > 0 && (t[0] == '+' || t[0] == '-') then
      assert t == [t[0]] + t[1..];
      t[1..]
    else t
  }

  /** An optional `0x` / `0X` prefix, which may be followed by one underscore. */
  function PrefixStripped(u: string): (r: string)
    ensures forall c :: c in u ==> c in r || c == '0' || c == 'x' || c == 'X' || c == '_'
  {
    if |u| >= 2 && u[0] == '0' && (u[1] == 'x' || u[1] == 'X') then
      if |u| >= 3 && u[2] == '_' then
        assert u == u[..3] + u[3..];
        u[3..]
      else
        assert u == u[..2] + u[2..];
        u[2..]
    else u
  }

  /** True exactly when `int(s, 16)` returns rather than raising ValueError. */
  predicate ParsesAsHexInt(s: string)
  {
    HexDigits(PrefixStripped(SignStripped(Strip(s, IsPySpace))))
  }

  predicate AllHex(s: string)
  {
    forall i :: 0 <= i < |s| ==> IsHexDigit(s[i])
  }

  /** Characters `int(_, 16)` can skip or read somewhere in an accepted text. */
  predicate MayAppearInHexInt(c: char)
  {
    IsHexDigit(c) || IsPySpace(c) || c == '+' || c == '-' || c == 'x' || c == 'X' || c == '_'
  }

  /** Plain hex digits form a digit run. */
  lemma AllHexDigits(v: string)
    requires |v| > 0 && AllHex(v)
    ensures HexDigits(v)
  {
    forall i | 0 < i < |v| - 1
      ensures DigitOrSeparator(v, i)
    {
      assert IsHexDigit(v[i]);
    }
  }

  /** A non-empty run of plain hex digits parses. */
  lemma AllHexParses(s: string)
    requires |s| > 0 && AllHex(s)
    ensures ParsesAsHexInt(s)
  {
    StripKeeps(s, IsPySpace);
    assert SignStripped(s) == s;
    assert PrefixStripped(s) == s;
    AllHexDigits(s);
  }

  /** Hex digits behind a `0x` prefix parse. */
  lemma PrefixedHexParses(v: string)
    requires |v| > 0 && AllHex(v)
    ensures ParsesAsHexInt("0x" + v)
  {
    var m := "0x" + v;
    assert m[|m| - 1] == v[|v| - 1];
    StripKeeps(m, IsPySpace);
    assert SignStripped(m) == m;
    assert m[2] == v[0];
    assert m[2..] == v;
    assert PrefixStripped(m) == v;
    AllHexDigits(v);
  }

  /** One character that is neither a digit nor part of the surrounding syntax makes the parse fail. */
  lemma ForeignCharRejected(s: string, c: char)
    requires c in s && !MayAppearInHexInt(c)
    ensures !ParsesAsHexInt(s)
  {
    var t := Strip(s, IsPySpace);
    assert c in t;
    var u := SignStripped(t);
    assert c in u;
    var v := PrefixStripped(u);
    assert c in v;
    HexDigitsChars(v, c);
  }

  /** Every character of an accepted digit run is a hex digit or an underscore. */
  lemma HexDigitsChars(v: string, c: char)
    requires c in v && !IsHexDigit(c) && c != '_'
    ensures !HexDigits(v)
  {
    var i :| 0 <= i < |v| && v[i] == c;
    if 0 < i < |v| - 1 {
      assert !DigitOrSeparator(v, i);
    }
  }
}

=== FILE: requests.dfy ===
/**
 What every request handler of pygsm.py shares: the caller's auth context, the
 dev-partition permission gate, and the shape of a handler's reply.
 */
module Requests {
  import opened Wrappers
  import opened Envelopes
  import opened Connection

  /** The message every handler answers an unexpected database exception with. */
  const InternalError := "Internal pygsm error. See logs for more details."

  /** The request's auth context: whether the caller is anonymous, and whether its key is a development key. */
  datatype AuthContext = AuthContext(anonymous: bool, development: bool)

  /** What a handler leaves behind: the connection, and the envelope or the exception that escaped it. */
  datatype Outcome<+T> = Returned(env: Envelope<T>) | Uncaught(error: DbError)

  datatype Reply<+T> = Reply(conn: Conn, out: Outcome<T>)

  /** The gate's decision: refuse, or go on with this `dev` filter. */
  datatype Gate = Denied | Allowed(dev: Option<bool>)

  /**
   The check at the top of every optional-auth listing: an absent or anonymous
   caller asking for `dev` is refused; otherwise a `dev` left as None is taken
   from the caller's key.
   */
  function PermissionGate(auth: Option<AuthContext>, dev: Option<bool>): (g: Gate)
    ensures g.Denied? <==> (auth.None? || auth.value.anonymous) && dev == Some(true)
    ensures g.Allowed? && dev.Some? ==> g.dev == dev
    ensures g.Allowed? && dev.None? ==> g.dev == (if auth.Some? then Some(auth.value.development) else None)
  {
    if (auth.None? || auth.value.anonymous) && dev == Some(true) then Denied
    else if dev.None? && auth.Some? then Allowed(Some(auth.value.development))
    else Allowed(dev)
  }

  /** The reply to a refused caller: the connection untouched and a 403. */
  function Refused<T>(c: Conn): (r: Reply<T>)
    ensures r.conn == c && r.out == Returned(ResponseError("Permission denied", 403))
  {
    Reply(c, Returned(ResponseError("Permission denied", 403)))
  }

  /** `dev = %s` in SQL: a NULL parameter matches no row. */
  predicate DevMatches(filter: Option<bool>, dev: bool)
  {
    filter == Some(dev)
  }

  /** Python truth of an optional number: None and 0 are false. */
  predicate Truthy(n: Option<int>)
  {
    n.Some? && n.value != 0
  }

  /** Every envelope a reply carries is well formed. */
  predicate WellFormedReply<T>(r: Reply<T>)
  {
    r.out.Returned? ==> WellFormed(r.out.env)
  }
}

=== FILE: servers.dfy ===
/**
 The server endpoints of pygsm.py: the active-server listing (GET /server),
 the ping upsert (POST /server) and the soft delete (DELETE /server).
 */
module Servers {
  import opened Wrappers
  import opened Envelopes
  import opened Store
  import opened Connection
  import opened Requests
  import Authentication
  import Games
  import Settings

  /** One listed server, as the handler serialises it. */
  datatype ServerRow = ServerRow(hostname: string, port: int, name: string, ping: int,
                                 activePlayers: int, maxPlayers: int, gameUuid: Option<Uuid>)

  function AsServerRow(key: ServerKey, p: PingRow): ServerRow
  {
    ServerRow(key.hostname, key.port, p.name, p.ping, p.active, p.max, p.gameUuid)
  }

  /** The listing's WHERE clause: pinged within five minutes, not down, in the requested partition. */
  predicate Active(p: PingRow, now: int, dev: Option<bool>)
  {
    p.ping > now - Settings.PingFreshness && !p.down && DevMatches(dev, p.dev)
  }

  function ActiveServers(s: Store, now: int, dev: Option<bool>): set<ServerRow>
  {
    set k | k in s.pings && Active(s.pings[k], now, dev) :: AsServerRow(k, s.pings[k])
  }

  /**
   GET /server at wall-clock time `now`: the active rows of the caller's
   partition, in no particular order (`ORDER BY RANDOM()`), or 404 when there are
   none. Freshness is judged by `now()`, the start of the open transaction.
   */
  function ListServers(c: Conn, auth: Option<AuthContext>, now: int, dev: Option<bool> := Some(false)): (r: Reply<set<ServerRow>>)
    ensures WellFormedReply(r)
    ensures r.conn.committed == c.committed && r.conn.work == c.work
    ensures PermissionGate(auth, dev).Denied? ==> r == Refused(c)
    ensures PermissionGate(auth, dev).Allowed? && c.status == InError ==> r.out == Uncaught(OtherError)
    ensures PermissionGate(auth, dev).Allowed? && c.status != InError ==>
      r.conn.status == InTransaction && r.conn.since == TxTime(c, now)
    ensures PermissionGate(auth, dev).Allowed? && c.status != InError ==>
      var filter := PermissionGate(auth, dev).dev;
      && r.out.Returned?
      && (r.out.env.success <==> exists k :: k in c.work.pings && Active(c.work.pings[k], TxTime(c, now), filter))
      && (r.out.env.success ==>
           && r.out.env.results.Some?
           && forall row :: row in r.out.env.results.value <==>
                exists k :: k in c.work.pings && Active(c.work.pings[k], TxTime(c, now), filter) && row == AsServerRow(k, c.work.pings[k]))
      && (!r.out.env.success ==> r.out.env == ResponseError("No servers found", 404))
  {
    match PermissionGate(auth, dev)
    case Denied => Refused(c)
    case Allowed(filter) =>
      match Read(c, now)
      case Err(e) => Reply(c, Uncaught(e))
      case Ok(c') =>
        var rows := ActiveServers(c.work, TxTime(c, now), filter);
        if |rows| > 0 then
          assert exists k :: k in c.work.pings && Active(c.work.pings[k], TxTime(c, now), filter) by {
            var row :| row in rows;
          }
          Reply(c', Returned(Response(Some(rows))))
        else
          assert forall k :: k in c.work.pings && Active(c.work.pings[k], TxTime(c, now), filter) ==> AsServerRow(k, c.work.pings[k]) in rows;
          Reply(c', Returned(ResponseError("No servers found", 404)))
  }

  /** The parameters of POST /server (`maxPlayers` defaults to 8). */
  datatype PingRequest = PingRequest(hostname: string, port: int, name: string, activePlayers: int,
                                     gameUuid: Option<Uuid>, maxPlayers: int := 8)

  /** What the engine contributes to a ping: the key a new game row would get, and how each statement fares. */
  datatype PingEngine = PingEngine(generated: Uuid, gameFault: Fault, pingFault: Fault)

  function KeyOf(req: PingRequest): ServerKey
  {
    ServerKey(req.hostname, req.port)
  }

  /** The game statement a ping issues: insert-or-ignore the given UUID, or insert a game with a generated key. */
  function GameStatement(req: PingRequest, eng: PingEngine, now: int, dev: bool): Statement
  {
    if req.gameUuid.Some? then InsertGameIfNew(req.gameUuid.value, now, dev)
    else InsertGame(eng.generated, now, dev)
  }

  /**
   What the game statement does to a store: a named UUID is inserted stamped
   `now` unless it already exists (then nothing changes and no row is returned);
   without one, a game under the generated key is inserted, which can only clash
   with an existing key.
   */
  lemma GameStatementEffect(w: Store, req: PingRequest, eng: PingEngine, now: int, dev: bool)
    ensures var key := if req.gameUuid.Some? then req.gameUuid.value else eng.generated;
            var a := Apply(w, GameStatement(req, eng, now, dev));
            && (a.Violation? <==> req.gameUuid.None? && key in w.games)
            && (a.Applied? && key in w.games ==> a.store == w && a.rows == 0)
            && (key !in w.games ==> a == Applied(w.(games := w.games[key := Game(now, dev)]), 1))
  {
  }

  /**
   Whether the game statement, issued at `now`, goes through: no aborted
   transaction, no engine failure, no key clash.
   */
  predicate GameStepRuns(c: Conn, req: PingRequest, eng: PingEngine, now: int, dev: bool)
  {
    c.status != InError && eng.gameFault != Fails && Apply(c.work, GameStatement(req, eng, TxTime(c, now), dev)).Applied?
  }

  /**
   POST /server, parameterised by the rowcount threshold of its `finally` block:
   the game UUID returned by the insert is adopted (and the insert committed)
   only when the game insert's rowcount exceeds `adoptAbove`. The request
   arrives at wall-clock time `now`; both statements stamp `now()`, which is the
   start of a transaction a listing may have left open.
   */
  function PingWith(adoptAbove: int, c: Conn, req: PingRequest, auth: Authentication.Auth, now: int, eng: PingEngine): (r: Reply<()>)
    requires adoptAbove >= 0
    ensures WellFormedReply(r) && r.out.Returned?
    ensures Intact(c) ==> Intact(r.conn)
    ensures r.out.env.success <==> GameStepRuns(c, req, eng, now, auth.development) && eng.pingFault == NoFault
    ensures !GameStepRuns(c, req, eng, now, auth.development) ==>
      r.conn == c.(status := InError, since := TxTime(c, now)) && r.out.env == ResponseError("Could not create new game.", 500)
    ensures GameStepRuns(c, req, eng, now, auth.development) && eng.pingFault == Fails ==>
      r.conn.status == InError && r.out.env == ResponseError(InternalError)
    ensures GameStepRuns(c, req, eng, now, auth.development) && eng.pingFault == NoRows ==>
      r.conn.status == Idle && r.conn.work == r.conn.committed && r.out.env == ResponseError("Ping failed for unknown reasons!")
    ensures r.out.env.success ==>
      var key := KeyOf(req);
      var after := Apply(c.work, GameStatement(req, eng, TxTime(c, now), auth.development)).store;
      && r.conn.status == Idle && r.conn.work == r.conn.committed
      && r.conn.committed.games == (if eng.gameFault == NoFault then after.games else c.work.games)
      && r.conn.committed.players == c.work.players
      && r.conn.committed.leaderboard == c.work.leaderboard
      && r.conn.committed.pings.Keys == c.work.pings.Keys + {key}
      && (forall k :: k in c.work.pings && k != key ==> r.conn.committed.pings[k] == c.work.pings[k])
      && var row := r.conn.committed.pings[key];
         row.name == req.name && row.active == req.activePlayers
         && row.max == req.maxPlayers && row.dev == auth.development && !row.down
         && (row.ping == now || row.ping == TxTime(c, now))
         && (adoptAbove >= 1 ==> row.ping == TxTime(c, now))
  {
    var g := GamePhase(adoptAbove, c, req, now, eng, auth.development);
    if g.raised then
      Reply(g.conn, Returned(ResponseError("Could not create new game.", 500)))
    else
      // `now()` of the upsert: a fresh transaction once the game insert was committed
      var row := PingRow(req.name, TxTime(g.conn, now), req.activePlayers, req.maxPlayers, auth.development, g.gameUuid, false);
      Upsert(Begin(g.conn, now), KeyOf(req), row, eng.pingFault)
  }

  /** The game UUID the ping's game insert returns: the one given, or the generated one. */
  function ReturnedUuid(req: PingRequest, eng: PingEngine): Uuid
  {
    if req.gameUuid.Some? then req.gameUuid.value else eng.generated
  }

  /** The game step of a ping: whether it raised, the connection it leaves, and the game UUID the ping goes on with. */
  datatype GameStepped = GameStepped(conn: Conn, raised: bool, gameUuid: Option<Uuid>)

  /**
   The game insert of POST /server and its `finally` block, which commits the
   insert and adopts the returned UUID when the rowcount exceeds `adoptAbove`.
   */
  function GamePhase(adoptAbove: int, c: Conn, req: PingRequest, now: int, eng: PingEngine, dev: bool): (s: GameStepped)
    requires adoptAbove >= 0
    ensures Intact(c) ==> Intact(s.conn)
    ensures s.raised <==> !GameStepRuns(c, req, eng, now, dev)
    ensures s.raised ==> s.conn == c.(status := InError, since := TxTime(c, now))
    ensures !s.raised ==>
      var adopted := adoptAbove == 0 && eng.gameFault == NoFault && ReturnedUuid(req, eng) !in c.work.games;
      && s.conn.status != InError
      && s.conn.work == (if eng.gameFault == NoFault then Apply(c.work, GameStatement(req, eng, TxTime(c, now), dev)).store else c.work)
      && s.gameUuid == (if adopted then Some(ReturnedUuid(req, eng)) else req.gameUuid)
      && TxTime(s.conn, now) == (if adopted then now else TxTime(c, now))
    ensures !s.raised && adoptAbove == 0 && eng.gameFault == NoFault && ReturnedUuid(req, eng) !in c.work.games ==>
      s.conn.status == Idle && s.conn.committed == s.conn.work
  {
    var c0 := Begin(c, now);
    var g := Execute(c0, eng.gameFault, GameStatement(req, eng, c0.since, dev));
    var adopt := Count(g.rows) > adoptAbove;
    GameStepped(if adopt then Commit(g.conn) else g.conn, g.rows.Raised?, if adopt then Some(ReturnedUuid(req, eng)) else req.gameUuid)
  }

  /**
   The upsert of POST /server and its outcome: any exception is answered without
   a rollback, a statement touching no row is rolled back, otherwise the row is
   committed, marked up.
   */
  function Upsert(c: Conn, key: ServerKey, row: PingRow, fault: Fault): (r: Reply<()>)
    ensures WellFormedReply(r) && r.out.Returned?
    ensures Intact(c) ==> Intact(r.conn)
    ensures r.out.env.success <==> c.status != InError && fault == NoFault
    ensures c.status == InError || fault == Fails ==>
      r.conn == c.(status := InError) && r.out.env == ResponseError(InternalError)
    ensures c.status != InError && fault == NoRows ==>
      r.conn == Rollback(c) && r.out.env == ResponseError("Ping failed for unknown reasons!")
    ensures r.out.env.success ==>
      && r.out.env == ResponsePositive("Ping successful!")
      && r.conn.status == Idle && r.conn.work == r.conn.committed
      && r.conn.committed == c.work.(pings := c.work.pings[key := row.(down := false)])
  {
    var p := Execute(c, fault, UpsertPing(key, row));
    if p.rows.Raised? then
      Reply(p.conn, Returned(ResponseError(InternalError)))
    else if p.rows.n < 1 then
      Reply(Rollback(p.conn), Returned(ResponseError("Ping failed for unknown reasons!")))
    else
      Reply(Commit(p.conn), Returned(ResponsePositive("Ping successful!")))
  }

  /** POST /server as written: `if db_cursor.rowcount > 1` in its `finally` block. */
  function Ping(c: Conn, req: PingRequest, auth: Authentication.Auth, now: int, eng: PingEngine): (r: Reply<()>)
    ensures r == PingWith(1, c, req, auth, now, eng)
    ensures r.out.env.success ==> r.conn.committed.pings[KeyOf(req)].gameUuid == req.gameUuid
  {
    PingWith(1, c, req, auth, now, eng)
  }

  /** POST /server with the threshold evidently meant, `rowcount > 0`. */
  function PingIntended(c: Conn, req: PingRequest, auth: Authentication.Auth, now: int, eng: PingEngine): (r: Reply<()>)
    ensures r == PingWith(0, c, req, auth, now, eng)
    ensures r.out.env.success && eng.gameFault == NoFault ==>
      r.conn.committed.pings[KeyOf(req)].gameUuid == Some(if req.gameUuid.Some? then req.gameUuid.value else eng.generated)
  {
    PingWith(0, c, req, auth, now, eng)
  }

  /** DELETE /server: mark the `(hostname, port)` row down and commit, or roll back and answer 404. */
  function RemoveServer(c: Conn, hostname: string, port: int, fault: Fault): (r: Reply<()>)
    ensures WellFormedReply(r) && r.out.Returned?
    ensures Intact(c) ==> Intact(r.conn)
    ensures r.out.env.success <==> c.status != InError && fault == NoFault && ServerKey(hostname, port) in c.work.pings
    ensures r.out.env.success ==>
      var key := ServerKey(hostname, port);
      && r.conn.status == Idle && r.conn.work == r.conn.committed
      && r.conn.committed == c.work.(pings := c.work.pings[key := c.work.pings[key].(down := true)])
    ensures c.status != InError && fault != Fails && (fault == NoRows || ServerKey(hostname, port) !in c.work.pings) ==>
      r.conn == Rollback(c) && r.out.env == ResponseError("No servers found", 404)
    ensures (c.status == InError || fault == Fails) ==>
      r.conn == c.(status := InError) && r.out.env == ResponseError(InternalError)
  {
    var x := Execute(c, fault, MarkDown(ServerKey(hostname, port)));
    if x.rows.Raised? then
      Reply(x.conn, Returned(ResponseError(InternalError)))
    else if x.rows.n > 0 then
      Reply(Commit(x.conn), Returned(ResponsePositive("Shutdown successful!")))
    else
      Reply(Rollback(x.conn), Returned(ResponseError("No servers found", 404)))
  }

  // ---------------------------------------------------------------------------
  // Properties of the ping upsert

  /** A ping whose upsert touches no row is rolled back: the committed store is the one the request found. */
  lemma PingRollsBackOnNoRows(c: Conn, req: PingRequest, auth: Authentication.Auth, now: int, eng: PingEngine)
    requires Clean(c)
    requires GameStepRuns(c, req, eng, now, auth.development) && eng.pingFault == NoRows
    ensures var r := Ping(c, req, auth, now, eng);
            && r.conn == Rollback(Begin(c, now))
            && r.out.env == ResponseError("Ping failed for unknown reasons!", 500)
  {
    var g := Execute(Begin(c, now), eng.gameFault, GameStatement(req, eng, TxTime(c, now), auth.development));
    assert Count(g.rows) <= 1;
  }

  /** After a successful ping the server has exactly one row, and the table grew only if the server was new. */
  lemma PingKeepsOneRowPerServer(c: Conn, req: PingRequest, auth: Authentication.Auth, now: int, eng: PingEngine)
    requires Ping(c, req, auth, now, eng).out.env.success
    ensures var pings := Ping(c, req, auth, now, eng).conn.committed.pings;
            && KeyOf(req) in pings
            && |pings| == |c.work.pings| + (if KeyOf(req) in c.work.pings then 0 else 1)
  {
    var pings := Ping(c, req, auth, now, eng).conn.committed.pings;
    if KeyOf(req) in c.work.pings {
      assert pings.Keys == c.work.pings.Keys;
    } else {
      assert pings.Keys == c.work.pings.Keys + {KeyOf(req)};
    }
  }

  /** Two pings from one server leave one row, carrying the second ping's values. */
  lemma RepeatedPingKeepsLatest(c: Conn, first: PingRequest, second: PingRequest, auth: Authentication.Auth,
                                now1: int, now2: int, eng1: PingEngine, eng2: PingEngine)
    requires KeyOf(first) == KeyOf(second)
    requires Ping(c, first, auth, now1, eng1).out.env.success
    requires Ping(Ping(c, first, auth, now1, eng1).conn, second, auth, now2, eng2).out.env.success
    ensures var mid := Ping(c, first, auth, now1, eng1).conn;
            var pings := Ping(mid, second, auth, now2, eng2).conn.committed.pings;
            && |pings| == |c.work.pings| + (if KeyOf(first) in c.work.pings then 0 else 1)
            && pings[KeyOf(first)].active == second.activePlayers
            && pings[KeyOf(first)].name == second.name
            && pings[KeyOf(first)].ping == now2
  {
    var mid := Ping(c, first, auth, now1, eng1).conn;
    PingKeepsOneRowPerServer(c, first, auth, now1, eng1);
    PingKeepsOneRowPerServer(mid, second, auth, now2, eng2);
  }

  /** A ping naming a game that exists leaves the games untouched; the game keeps its original partition. */
  lemma PingKeepsExistingGame(c: Conn, req: PingRequest, auth: Authentication.Auth, now: int, eng: PingEngine)
    requires req.gameUuid.Some? && req.gameUuid.value in c.work.games
    requires Ping(c, req, auth, now, eng).out.env.success
    ensures Ping(c, req, auth, now, eng).conn.committed.games == c.work.games
  {
  }

  /**
   As written, a ping without a game UUID inserts a fresh game, but the server's
   row records no game: the generated UUID is never adopted.
   */
  lemma PingOrphansNewGame(c: Conn, req: PingRequest, auth: Authentication.Auth, now: int, eng: PingEngine)
    requires req.gameUuid.None? && eng.gameFault == NoFault
    requires Ping(c, req, auth, now, eng).out.env.success
    ensures var after := Ping(c, req, auth, now, eng).conn.committed;
            && eng.generated !in c.work.games
            && after.games == c.work.games[eng.generated := Game(TxTime(c, now), auth.development)]
            && after.pings[KeyOf(req)].gameUuid == None
  {
  }

  /** With the intended threshold the server's row records the newly created game. */
  lemma PingIntendedRecordsNewGame(c: Conn, req: PingRequest, auth: Authentication.Auth, now: int, eng: PingEngine)
    requires req.gameUuid.None? && eng.gameFault == NoFault
    requires PingIntended(c, req, auth, now, eng).out.env.success
    ensures var after := PingIntended(c, req, auth, now, eng).conn.committed;
            && after.games == c.work.games[eng.generated := Game(TxTime(c, now), auth.development)]
            && after.pings[KeyOf(req)].gameUuid == Some(eng.generated)
            && after.pings[KeyOf(req)].gameUuid.value in after.games
  {
  }

  /**
   Because an authenticated `Auth` keeps `development = True`, every ping made
   with a key `authenticate` accepts is filed in the development partition, and
   the default production listing never shows it.
   */
  lemma AuthenticatedPingHiddenFromProduction(psk: string, creds: seq<Authentication.Credential>, c: Conn,
                                              req: PingRequest, now: int, eng: PingEngine, viewer: Option<AuthContext>)
    requires Authentication.Authenticate(Some(psk), creds).Ok?
    requires Authentication.Authenticate(Some(psk), creds).value.Some?
    requires var auth := Authentication.Authenticate(Some(psk), creds).value.value;
             Ping(c, req, auth, now, eng).out.env.success
    ensures var auth := Authentication.Authenticate(Some(psk), creds).value.value;
            var after := Ping(c, req, auth, now, eng).conn;
            && after.committed.pings[KeyOf(req)].dev
            && AsServerRow(KeyOf(req), after.committed.pings[KeyOf(req)]) !in
                 ListServers(after, viewer, now, Some(false)).out.env.results.GetOr({})
  {
  }

  /**
   The handler as it runs (undecorated, since the decorator yields None) can
   leave the shared connection aborted, after which every listing request fails.
   */
  lemma FailedPingPoisonsConnection(c: Conn, req: PingRequest, auth: Authentication.Auth, now: int, eng: PingEngine,
                                    viewer: Option<AuthContext>)
    requires GameStepRuns(c, req, eng, now, auth.development) && eng.pingFault == Fails
    ensures var after := Ping(c, req, auth, now, eng).conn;
            && after.status == InError
            && ListServers(after, viewer, now).out == Uncaught(OtherError)
  {
  }

  // ---------------------------------------------------------------------------
  // Pings, deletions and the listings that see them

  /**
   A successful ping makes the server visible, with the values it reported and
   stamped with the ping's `now()`, to a listing of its partition made at `later`
   while that stamp is still fresh.
   */
  lemma PingedServerIsListed(c: Conn, req: PingRequest, auth: Authentication.Auth, now: int, eng: PingEngine,
                             viewer: Option<AuthContext>, later: int)
    requires Ping(c, req, auth, now, eng).out.env.success
    requires PermissionGate(viewer, Some(auth.development)).Allowed?
    requires TxTime(c, now) > later - Settings.PingFreshness
    ensures var after := Ping(c, req, auth, now, eng).conn;
            var listed := ListServers(after, viewer, later, Some(auth.development)).out.env;
            && listed.success
            && ServerRow(req.hostname, req.port, req.name, TxTime(c, now), req.activePlayers, req.maxPlayers, req.gameUuid)
                 in listed.results.value
  {
    var after := Ping(c, req, auth, now, eng).conn;
    assert Active(after.work.pings[KeyOf(req)], later, Some(auth.development));
  }

  /**
   A listing leaves its transaction open, so a ping served next on the same
   connection is stamped with the listing's time, not its own: pinging at least
   `PingFreshness` seconds after a listing files a row that a production listing
   made at the ping's own time already treats as stale.
   */
  lemma PingAfterListingIsBackdated(c: Conn, viewer: Option<AuthContext>, t0: int, req: PingRequest,
                                    auth: Authentication.Auth, t1: int, eng: PingEngine, other: Option<AuthContext>)
    requires c.status == Idle && PermissionGate(viewer, Some(false)).Allowed?
    requires Ping(ListServers(c, viewer, t0).conn, req, auth, t1, eng).out.env.success
    requires t1 >= t0 + Settings.PingFreshness
    ensures var after := Ping(ListServers(c, viewer, t0).conn, req, auth, t1, eng).conn;
            && after.committed.pings[KeyOf(req)].ping == t0
            && AsServerRow(KeyOf(req), after.committed.pings[KeyOf(req)]) !in
                 ListServers(after, other, t1, Some(auth.development)).out.env.results.GetOr({})
  {
    var mid := ListServers(c, viewer, t0).conn;
    assert mid.status == InTransaction && TxTime(mid, t1) == t0;
    var after := Ping(mid, req, auth, t1, eng).conn;
    assert after.committed.pings[KeyOf(req)].ping == t0;
    assert !Active(after.work.pings[KeyOf(req)], t1, Some(auth.development));
  }

  /** A server marked down appears in no listing, whatever the partition. */
  lemma RemovedServerIsNotListed(c: Conn, hostname: string, port: int, fault: Fault, viewer: Option<AuthContext>,
                                 now: int, dev: Option<bool>)
    requires RemoveServer(c, hostname, port, fault).out.env.success
    ensures var listed := ListServers(RemoveServer(c, hostname, port, fault).conn, viewer, now, dev).out;
            listed.Returned? && listed.env.results.Some? ==>
              forall row :: row in listed.env.results.value ==> row.hostname != hostname || row.port != port
  {
  }

  /** A ping naming an unknown game creates it in the key's partition, and looking that game up then finds it. */
  lemma PingedGameIsListed(c: Conn, req: PingRequest, auth: Authentication.Auth, now: int, eng: PingEngine,
                           viewer: Option<AuthContext>)
    requires req.gameUuid.Some? && req.gameUuid.value !in c.work.games && eng.gameFault == NoFault
    requires Ping(c, req, auth, now, eng).out.env.success
    requires PermissionGate(viewer, Some(auth.development)).Allowed?
    ensures var after := Ping(c, req, auth, now, eng).conn;
            Games.ListGames(after, viewer, now, req.gameUuid, Some(auth.development)).out.env.results
              == Some({Games.GameRow(req.gameUuid.value, TxTime(c, now))})
  {
    var after := Ping(c, req, auth, now, eng).conn;
    var u := req.gameUuid.value;
    assert after.work.games[u] == Game(TxTime(c, now), auth.development);
    assert Games.GameSelected(u, after.work.games[u], now, req.gameUuid, Some(auth.development));
    var rows := Games.ListGames(after, viewer, now, req.gameUuid, Some(auth.development)).out.env.results.value;
    assert rows == {Games.GameRow(u, TxTime(c, now))};
  }
}

=== FILE: settings.dfy ===
/** The configuration defaults the modelled code reads from `settings` (core/config.py). */
module Settings {

  /** `settings['GAME_MAX_AGE']`: retention window of game listings, in days. */
  const GameMaxAge: int := 30

  /** `settings['AUTH_PSK_FORMAT']`: the validator name the module-level `authenticate` uses. */
  const AuthPskFormat: string := "string"

  const SecondsPerDay: int := 86400

  /** Servers count as active when pinged within the last five minutes (`interval '5 minutes'`). */
  const PingFreshness: int := 300
}

=== FILE: store.dfy ===
/**
 The relational store as immutable maps, and what each SQL statement the
 handlers issue does to it when the engine runs it normally.
 */
module Store {
  import opened Wrappers

  /** A UUID as its 128-bit value. */
  type Uuid = x: int | 0 <= x < 0x1_0000_0000_0000_0000_0000_0000_0000_0000

  /** `zero_uuid` (core/__init__.py). */
  const ZeroUuid: Uuid := 0

  /** A player's JSON `meta` document, kept opaque. */
  type Meta = string

  /** A row of `game`, keyed by its UUID. */
  datatype Game = Game(stamp: int, dev: bool)

  /** The unique key `ping_hostname_port_key` of the `ping` table. */
  datatype ServerKey = ServerKey(hostname: string, port: int)

  /** A row of `ping`. */
  datatype PingRow = PingRow(name: string, ping: int, active: int, max: int, dev: bool, gameUuid: Option<Uuid>, down: bool)

  /** A row of `game_player`, keyed by its generated `game_player_id`. */
  datatype Player = Player(gameUuid: Uuid, meta: Meta)

  /** A row of `leaderboard`: one `(kills, deaths)` fact about a player. */
  datatype Entry = Entry(id: int, player: int, kills: int, deaths: int)

  datatype Store = Store(
    games: map<Uuid, Game>,
    pings: map<ServerKey, PingRow>,
    players: map<int, Player>,
    leaderboard: seq<Entry>)

  /** The foreign keys the schema enforces: players belong to games, entries to players. */
  predicate ReferencesHold(s: Store)
  {
    && (forall id :: id in s.players ==> s.players[id].gameUuid in s.games)
    && (forall i :: 0 <= i < |s.leaderboard| ==> s.leaderboard[i].player in s.players)
  }

  /** The writes the handlers issue. */
  datatype Statement =
    | InsertGameIfNew(uuid: Uuid, now: int, dev: bool)         // INSERT INTO game ... ON CONFLICT DO NOTHING
    | InsertGame(generated: Uuid, now: int, dev: bool)         // INSERT INTO game (stamp, dev): the key is generated
    | UpsertPing(key: ServerKey, row: PingRow)                 // INSERT INTO ping ... ON CONFLICT ... DO UPDATE
    | MarkDown(key: ServerKey)                                 // UPDATE ping SET down = true WHERE ...
    | InsertPlayer(id: int, gameUuid: Uuid, meta: Meta)        // INSERT INTO game_player: the id is generated
    | InsertEntry(entry: Entry)                                // INSERT INTO leaderboard

  /** What a statement does when the engine runs it: the new store and its row count, or a constraint violation. */
  datatype Effect = Applied(store: Store, rows: nat) | Violation

  /**
   The statement's meaning. Key clashes on generated keys and missing referenced
   rows are constraint violations; `ON CONFLICT DO NOTHING` affects no row; the
   upsert always leaves one live row under its key.
   */
  function Apply(s: Store, stmt: Statement): (e: Effect)
    ensures e.Applied? ==> e.rows <= 1
    ensures ReferencesHold(s) && e.Applied? ==> ReferencesHold(e.store)
  {
    match stmt
    case InsertGameIfNew(uuid, now, dev) =>
      if uuid in s.games then Applied(s, 0)
      else Applied(s.(games := s.games[uuid := Game(now, dev)]), 1)
    case InsertGame(generated, now, dev) =>
      if generated in s.games then Violation
      else Applied(s.(games := s.games[generated := Game(now, dev)]), 1)
    case UpsertPing(key, row) =>
      Applied(s.(pings := s.pings[key := row.(down := false)]), 1)
    case MarkDown(key) =>
      if key in s.pings then Applied(s.(pings := s.pings[key := s.pings[key].(down := true)]), 1)
      else Applied(s, 0)
    case InsertPlayer(id, uuid, meta) =>
      if uuid !in s.games || id in s.players then Violation
      else
        var t := s.(players := s.players[id := Player(uuid, meta)]);
        assert ReferencesHold(s) ==> ReferencesHold(t) by {
          if ReferencesHold(s) {
            assert forall i :: 0 <= i < |t.leaderboard| ==> t.leaderboard[i].player in s.players;
          }
        }
        Applied(t, 1)
    case InsertEntry(entry) =>
      if entry.player !in s.players then Violation
      else
        var t := s.(leaderboard := s.leaderboard + [entry]);
        assert ReferencesHold(s) ==> ReferencesHold(t) by {
          if ReferencesHold(s) {
            assert forall i :: 0 <= i < |s.leaderboard| ==> t.leaderboard[i] == s.leaderboard[i];
          }
        }
        Applied(t, 1)
  }
}

=== FILE: wrappers.dfy ===
/** Failure-carrying datatypes shared by every module of the model. */
module Wrappers {

  /** Python's `None` versus a present value. */
  datatype Option<+T> = None | Some(value: T) {

    /** The value, or `default` when there is none. */
    function GetOr(default: T): T
    {
      match this
      case Some(v) => v
      case None => default
    }
  }

  /** A value or the exception a Python call raised instead. */
  datatype Result<+T, +E> = Ok(value: T) | Err(error: E)
}
